=== FILE: README.md ===
# Rinzler worker pool, modelled in Dafny

Rinzler runs jobs on a pool of web workers that grows and shrinks with demand.
This project models its pool-management core as pure state-transition
functions over immutable datatypes, and proves properties of them:

- `median.dfy` (module `Median`): `calculateMedian`, including its index rule
  for odd-length samples.
- `event_emitter.dfy` (module `EventEmitter`): the listener registry every
  worker wrapper inherits, with durable and one-shot listeners. Listeners are
  abstract ids. A trigger returns the listeners it invoked, in order, and the
  new registry. What a callback registers while it runs is a parameter
  (`react`).
- `protocol.dfy` (module `Protocol`): the messages exchanged between the page
  and a worker script. Payloads and transferable buffers are opaque.
- `worker_wrapper.dfy` (module `WorkerWrapper`): one worker wrapper. It holds a
  FIFO job queue, a single in-flight slot, the `ready` handshake and a graceful
  shutdown. A transition returns the new wrapper, the `postMessage` and
  `terminate` requests it makes, and the events it fires.
- `worker_side.dfy` (module `WorkerSide`): the script inside a worker. It maps a
  received message and the abstract outcome of the init or work function to
  the messages it posts.
- `scheduler.dfy` (module `Scheduler`): the insertion-ordered pool registry. It
  holds the least-busy scan (inactive workers skipped, first wins on a tie, an
  empty queue stops the scan, the `-1` sentinel) and the calls that grow,
  shrink and feed the pool.
- `engine.dfy` (module `Engine`): the autoscaling controller (`RinzlerEngine`).
  It holds the temperature model and the guards of heat-up and cool-down. It
  also holds the bounded spawn-time sample and the single cooling-timer slot.
  Every call is one transition returning the new controller, its requests
  (posts to workers, `setTimeout`, `clearTimeout`) and the error it throws, if
  any. State changed before a throw stays changed.

Each `await` completes within the step that starts it. The wrapper's own waits
are two exceptions: `start` waiting for `ready`, and `shutdown` waiting for
`idle`. Those are flags. A later message completes the wait of `shutdown` and of a
bare `start`; within the controller, `extendPool` supplies the `ready` reply in the
same step (see the Scheduler.ExtendPool line under "## Left out"). Fresh worker ids
and job ids (`nanoid`), measured spawn durations (`performance.now`) and timer
handles (`window.setTimeout`) are parameters. The model requires ids to be
fresh and non-empty.

Where Rinzler's design documentation and the code disagree, the model follows the code:

- The median of a one-element sample is `undefined` (`None`), not the element.
- `startup` does not set the target to 0 first. The first heat-up computes it
  from -1.
- Heat-up refuses a target of 0, not a negative one.
- The job functions the code does not have are absent: the automatic heat-up,
  the pressure counter, the job-duration sample, `afterburner`, and waiting for
  a job's result.

## Model

| member | source | states |
|---|---|---|
| Median.Sort | src/median.ts:4 | the sorted copy is ascending and holds exactly the samples, with their multiplicities |
| Median.SortedUnique | src/median.ts:4 | two ascending sequences with the same multiset of values are equal, so the sorted copy depends only on which samples were taken |
| Median.PickMiddle | src/median.ts:3-5 | on a sorted sample the rule has no value exactly when n = 1; for even n the result lies between the two middle elements; for odd n >= 3 it is a sample at or above the middle one |
| Median.PickMiddleRule | src/median.ts:3-5 | for n >= 2 the rule picks index n/2 + 1 (one past the middle) for odd n, and the mean of indices n/2 - 1 and n/2 for even n |
| Median.CalculateMedian | src/median.ts:1-6 | the empty sample gives 0; there is no value exactly for one sample; an even sample gives a value between two of its samples; an odd sample of 3 or more gives one of its samples, at or above the sorted middle |
| Median.MedianIgnoresOrder | src/median.ts:4 | samples that are permutations of each other have the same median |
| EventEmitter.Empty | src/event-emitter.ts:5-6 | a new registry has no listener of either kind for any event |
| EventEmitter.On | src/event-emitter.ts:8-10 | `on` appends the listener to the end of the event's durable list (a missing list counts as empty); every other list is unchanged |
| EventEmitter.Once | src/event-emitter.ts:12-14 | `once` appends the listener to the end of the event's one-shot list; every other list is unchanged |
| EventEmitter.WaitFor | src/event-emitter.ts:16-22 | `waitFor` adds exactly one one-shot listener to the event, after the existing ones, and changes nothing else |
| EventEmitter.ApplyAllEffect | src/event-emitter.ts:8-14 | after any run of `on`/`once` calls, each list holds its old contents followed by the listeners added to it, in call order |
| EventEmitter.TriggerInvokes | src/event-emitter.ts:24-35 | a trigger runs the durable listeners in registration order, then each one-shot listener registered before it or by a durable callback during it |
| EventEmitter.TriggerEmptiesOneShots | src/event-emitter.ts:28-34 | after a trigger, the event's one-shot list holds only what the one-shot callbacks registered for it during the trigger |
| EventEmitter.TriggerKeepsDurableLists | src/event-emitter.ts:25-27 | every durable list keeps its old contents, followed only by what the callbacks added |
| EventEmitter.TriggerKeepsOtherOneShots | src/event-emitter.ts:28-34 | the one-shot lists of other events keep their old contents, followed only by what the callbacks added |
| EventEmitter.TriggerWithoutReentry | src/event-emitter.ts:24-35 | without re-entrant registration: durable listeners run and stay, earlier one-shots run once after them and are discarded, and no other event is touched |
| EventEmitter.OnceDuringCallbackSurvives | src/event-emitter.ts:29-33 | a one-shot listener registered by a one-shot callback is not run by that trigger but waits for the next |
| WorkerWrapper.New | src/worker-wrapper.ts:80-94 | a new wrapper is inactive, has no queue or in-flight job, and waits for nothing |
| WorkerWrapper.IndexOf | src/worker-wrapper.ts:149 | the result is the first position of the id, or -1 exactly when the id is absent |
| WorkerWrapper.Start | src/worker-wrapper.ts:96-103 | `start` posts only the init message, with the stored init arguments, and waits for `ready` without activating |
| WorkerWrapper.ProcessQueue | src/worker-wrapper.ts:129-135 | with a job in flight nothing happens; otherwise the queue head becomes the in-flight job and is the only job posted, with its buffers or none |
| WorkerWrapper.FireIdle | src/worker-wrapper.ts:115-121 | firing `idle` terminates the worker exactly when a shutdown was waiting for it, and leaves queue and activity alone |
| WorkerWrapper.SubmitJob | src/worker-wrapper.ts:108-113 | an inactive wrapper refuses the job; an active one queues it at the tail, leaving an in-flight job untouched |
| WorkerWrapper.Shutdown | src/worker-wrapper.ts:115-121 | the wrapper stops taking jobs at once; it terminates at once exactly when the queue is empty, otherwise it waits for `idle` |
| WorkerWrapper.Receive | src/worker-wrapper.ts:137-160 | `ready` activates a starting wrapper and fires `ready` then `idle`; `jobok` fires the plain and the id-tagged event; `jobdone` removes the job and then, when the queue is empty, fires `idle`, which terminates the worker exactly when a shutdown was waiting and ends that wait; otherwise it posts the new head and leaves a waiting shutdown, the termination flag and the start state alone; every other message is refused |
| WorkerWrapper.Complete | src/worker-wrapper.ts:146-156 | the `jobdone` branch: the job leaves the queue; a drained queue asks for a termination exactly when a shutdown was waiting and ends that wait; otherwise the next job is the only post and every flag is kept |
| WorkerWrapper.FinishRemoves | src/worker-wrapper.ts:149 | a `jobdone` for a queued id removes the first job with that id; for an unknown id it removes the last job |
| WorkerWrapper.HandleKeepsWrapperInv | src/worker-wrapper.ts:108-160 | every call keeps at most one job in flight, and that job is the queue head |
| WorkerWrapper.TerminateOnlyWhenDrained | src/worker-wrapper.ts:115-121 | the worker is terminated only with an empty queue, so no job is dropped |
| WorkerWrapper.SubmitStep | src/worker-wrapper.ts:108-113 | a submission to an active wrapper adds the job behind every job not yet posted |
| WorkerWrapper.DoneStep | src/worker-wrapper.ts:146-155 | the completion of the in-flight job posts the next waiting job, if any, and keeps the order of the rest |
| WorkerWrapper.FifoDispatch | src/worker-wrapper.ts:108-155 | over any run of submissions and completions, jobs are posted in submission order, and the jobs still waiting follow in that order |
| WorkerWrapper.StartHandshake | src/worker-wrapper.ts:96-106 | `start` then `ready` posts the init message first, and only the `ready` activates the wrapper and fires `ready` then `idle` |
| WorkerWrapper.ShutdownWaitsForIdle | src/worker-wrapper.ts:115-121 | a shutdown with k >= 1 queued jobs does not terminate; while the jobs complete in order, the first j < k completions only post the jobs behind the first; all k of them end with exactly one termination, last, and leave the worker terminated with an empty queue |
| WorkerWrapper.DrainAll | src/worker-wrapper.ts:146-156 | while a shutdown waits, k >= 1 queued jobs completing in order post the jobs behind the first and then ask for the termination |
| WorkerWrapper.DrainPrefix | src/worker-wrapper.ts:146-156 | while a shutdown waits, completions that leave jobs queued post the next jobs and keep the shutdown waiting |
| WorkerSide.ProcessJob | worker-src/index.ts:19-43 | `jobok` with the job's id is posted before the work runs; `jobdone` carries the same id; its error flag is set exactly when the work threw, and then it carries the error message and no buffers, otherwise the work's message and buffers; when `null` or `undefined` was thrown, no `jobdone` is posted at all |
| WorkerSide.NullishRejectionStalls | worker-src/index.ts:30-35 | a job whose work throws `null` or `undefined` gets only its `jobok`, which leaves the wrapper unchanged, so its in-flight slot is never cleared |
| WorkerSide.Dispatch | worker-src/index.ts:47-60 | only `startup` and `job` are accepted; `startup` runs init and posts 'ready' exactly when init's promise resolves; an init that returns no promise, such as the default `function(){}` (src/worker-wrapper.ts:83), makes `startup` throw and 'ready' is never posted; `job` runs processJob |
| WorkerSide.CompletionRetiresHead | worker-src/index.ts:37-42 | the completion the script posts for a wrapper's in-flight job, when there is one, removes exactly the queue head |
| WorkerSide.InitHandshakeMismatch | worker-src/index.ts:47-60 | the script refuses the wrapper's `init` message, and the wrapper refuses the script's bare 'ready' string |
| Scheduler.Get | src/scheduler.ts:56 | the lookup misses exactly when the id is not pooled, and a hit is that id's worker |
| Scheduler.GetAt | src/scheduler.ts:56 | in a pool with distinct ids, the lookup of an entry's id yields that entry's worker |
| Scheduler.LeastBusyUnique | src/scheduler.ts:45-57 | at most one entry is the least busy, so the choice is determined |
| Scheduler.GetLeastBusyWorker | src/scheduler.ts:45-57 | the choice is never an inactive worker; it has the shortest queue among active workers and is the earliest on a tie; with no active worker the result is no worker, id '' and count -1 |
| Scheduler.ScanSelects | src/scheduler.ts:46-56 | the scan loop ends at the least-busy active worker, or at the sentinel when none is active |
| Scheduler.ScanStopsAtIdle | src/scheduler.ts:53 | once an active worker with an empty queue is ahead, the entries after the pool prefix are never looked at |
| Scheduler.IdleWorkerShortCircuits | src/scheduler.ts:49-55 | appending workers to a pool that already has an active idle worker does not change the choice, and the count is 0 |
| Scheduler.Delete | src/scheduler.ts:26 | deletion keeps exactly the entries with another id |
| Scheduler.DeleteAt | src/scheduler.ts:26 | in a pool with distinct ids, deleting an entry's id removes exactly that position and keeps the others in order |
| Scheduler.ExtendPool | src/scheduler.ts:15-20 | the started, now active worker is filed last under the fresh id, existing entries keep their order, and ids stay distinct |
| Scheduler.ReducePool | src/scheduler.ts:22-27 | with no active worker nothing changes; otherwise exactly the least-busy worker is shut down and removed, and the others keep their order |
| Scheduler.SubmitJob | src/scheduler.ts:29-41 | the job under the fresh id is queued on the least-busy active worker and every other entry is unchanged; with no active worker it fails |
| Engine.NewEngine | src/index.ts:7-22 | the ceiling is the core count minus one when that count is above 1, otherwise 1; the target starts at -1; the invariant holds |
| Engine.RecordSpawnTimeAsWritten | src/index.ts:94-95 | the recorded sample is at most 20 long and is the oldest part of the samples |
| Engine.BacklogDropsNewest | src/index.ts:94-95 | with 20 samples held, a new duration is discarded |
| Engine.RecordSpawnTime | src/index.ts:94-95 | the intended sample: at most 20 long, ends with the new duration, and keeps the latest earlier ones |
| Engine.SpawnOne | src/index.ts:85-95 | one round adds one active, idle worker under the fresh id after the others; it records the duration by the push-then-splice rule, posts only its init message and changes no setting |
| Engine.Spawn | src/index.ts:84-96 | the loop adds the fresh ids in order after the existing pool, with one request per worker |
| Engine.Rounds | src/index.ts:84-96 | after k rounds the pool gained the first k ids in order, all active and idle, with ids still distinct; only the pool and the sample changed; the sample stays bounded; the requests are the k init posts |
| Engine.HeatUp | src/index.ts:77-97 | the guards fire in order (no arguments, overheat, target 0) and change nothing; otherwise the fresh ids join the pool in order |
| Engine.HeatUpQuiet | src/index.ts:84-96 | a heat-up arms no timer and leaves the timer slot alone |
| Engine.HeatUpKeepsInv | src/index.ts:77-96 | a heat-up by any n, refused or not, keeps the controller's invariant |
| Engine.HeatUpReachesTarget | src/index.ts:83-96 | after a successful heat-up by n, the live size grew by n, equals the target, and the invariant holds |
| Engine.Startup | src/index.ts:24-30 | refused exactly when the pool is not empty; otherwise the arguments are stored and, when the guards allow, one active idle worker is started |
| Engine.StartupFromNew | src/index.ts:8-30 | a new controller starts with one active, idle worker, a target of 1, and the invariant |
| Engine.StartupFromCold | src/index.ts:24-30 | the same from any controller that was never started |
| Engine.PreHeat | src/index.ts:41-44 | pre-heating is never refused as overheating and arms no timer |
| Engine.PreHeatFillsPool | src/index.ts:41-44 | from the steady state, pre-heating fills the pool to the ceiling |
| Engine.Retire | src/scheduler.ts:22-27 | with no active worker nothing changes; otherwise exactly the least-busy worker leaves the pool (the others keep their order) and joins the draining workers after its wrapper's shutdown, whose requests go out under its id; no worker is lost |
| Engine.ReduceTimes | src/index.ts:105-107 | k reductions shrink an all-active pool by k, or empty it; no worker is lost |
| Engine.CoolDown | src/index.ts:99-108 | underheat exactly when target - n is below the floor; subzero exactly when it is below the live size; on success the target is the live size minus n, the pool shrinks by n, and nothing but the target, the pool and the draining workers changes; no worker is lost |
| Engine.SteadyStateRefusesCoolDown | src/index.ts:101-104 | while the target equals the live size, every cool-down by one or more workers is refused |
| Engine.ShutdownAsWritten | src/index.ts:32-34 | a shutdown succeeds exactly when the target minus the live size reaches the floor and the target is at least twice the live size; then it moves the whole pool to the draining workers, leaves a target of 0 and changes nothing else; refused, it changes nothing; it arms no timer |
| Engine.ShutdownAsWrittenKeepsInv | src/index.ts:32-34 | `shutdown` as written keeps the controller's invariant |
| Engine.ShutdownAsWrittenRefused | src/index.ts:32-34 | before `startup`, or whenever the target equals the live size, shutdown is refused as underheating and changes nothing |
| Engine.StartThenShutdownAsWritten | src/index.ts:24-34 | a controller that has just started its worker cannot be shut down |
| Engine.Shutdown | src/index.ts:32-34 | the intended shutdown sets the target to 0, empties an all-active pool, loses no worker, and arms no timer |
| Engine.ShutdownIsFinal | src/index.ts:79-81 | after shutdown, every later heat-up within the ceiling is refused as too cold |
| Engine.ShutdownEmptiesPool | src/index.ts:32-34 | after shutdown no worker is pooled, all of them are draining, and the invariant holds |
| Engine.RunJob | src/index.ts:37-39 | the job is queued on the least-busy worker and nothing else changes; the call then ends in a ReferenceError; with no active worker it fails first |
| Engine.RunJobQueues | src/index.ts:37-39 | on a started controller with a live pool the job is always queued and the invariant holds |
| Engine.IdleWorkerListener | src/index.ts:56-64 | with the timer slot filled nothing happens; otherwise one 4000 ms timer is armed and tagged with the worker, and a one-shot `jobok` watch goes on a pooled worker |
| Engine.React | src/index.ts:56-74 | `idle` with an empty slot arms one 4000 ms timer tagged with the worker, `idle` with a filled slot does nothing, and no other event arms a timer; the watched worker's `jobok` clears the timer tagged with it and then fails on the missing scheduler method, and only drops the watch when the timer is tagged with another worker; every other event changes nothing; a filled slot stays filled |
| Engine.OnWorkerMessage | src/index.ts:89-91 | a message goes to the pooled wrapper under its id, else to the draining one, with exactly the effect Engine.Deliver states; a message for an unknown id changes nothing; a timer, if armed, is the last request |
| Engine.Deliver | src/index.ts:89-91 | on a message the wrapper recognises, its entry (pooled or draining) becomes the wrapper's successor and every other entry is unchanged; the requests start with the wrapper's own requests under its id and go on with the controller's reaction to the events it fired; an unrecognised message is refused and changes nothing |
| Engine.TakeStep | src/index.ts:89-91 | one wrapper step replaces only that wrapper's entry, keeps ids and activity, lists the wrapper's requests first and then the reaction's, and arms at most one timer, last |
| Engine.ReactSeesOnlyIds | src/index.ts:56-74 | the controller's reaction to a worker's events depends on the pool only through its ids: swapping a wrapper's state changes neither the requests nor the error |
| Engine.DeliverArmsLast | src/index.ts:56-62 | delivering a message arms at most one timer, and then as the last request |
| Engine.CoolingTimerExpires | src/index.ts:60-61 | the pending timer stops pending and retires exactly the least-busy worker, whichever it is, moving it to the draining workers (nothing, with no active worker); the target stays; a stale handle does nothing; nothing is armed |
| Engine.HandleKeepsInv | src/index.ts:7-108 | every call, with `shutdown` and the spawn-time sample as written, keeps the invariant: the floor is 1, the ceiling at least 1, the sample bounded, pool ids distinct and all active, and the live size at most the target, which is at most the ceiling |
| Engine.HandleTimerSlot | src/index.ts:56-62 | a call arms at most one timer, only while the slot is empty, and then leaves it filled |
| Engine.TimerShape | src/index.ts:56-62 | every call leaves a filled timer slot filled, and its requests either arm nothing or end with the one 4000 ms timer under the supplied handle |
| Engine.ArmedAtMostOnce | src/index.ts:57-62 | over any run of calls the cooling timer is armed at most once, and never once the slot is filled |

## Left out

- Worker materialisation (src/worker-wrapper.ts:82-91) is not modelled: splicing function source into a script, the Blob URL and the `Worker` constructor. The real `postMessage` and `terminate` are requests in the output.
- The `messageerror` and `error` handlers (src/worker-wrapper.ts:162-168 and worker-src/index.ts:61-63) are left out. They only rethrow, and the model has no transport failures.
- The work and init functions are abstract: their outcome is an input. Structured-clone payloads and transferable buffers are opaque values.
- `nanoid`, `performance.now()` and `window.setTimeout` are left out. Their results are parameters, and ids are required to be fresh and non-empty.
- Promise interleaving is not modelled. Each call runs to its end in one transition, apart from the wrapper's two waits, which are flags. Within one message step, the wrapper's requests are listed before the controller's; in the source, a terminate that follows `await waitFor('idle')` runs in a later microtask.
- Engine.Retire collapses the drain. A retired worker leaves the pool at once and moves to the draining workers. In the source it stays in the pool map, inactive, until its queue drains, so `_measureTemp` counts it a while longer. For the same reason three uses of `workerPool.size` that count draining workers are not modelled: `startup`'s already-started check (src/index.ts:25), which Engine.Startup makes on the pool alone; the count that `shutdown` passes to `_coolDown` (src/index.ts:33), which Engine.ShutdownAsWritten takes as the live pool size; and `_coolDown`'s wait for each drain before it picks the next worker (src/index.ts:105-107), which Engine.ReduceTimes replaces by immediate retirements.
- Engine.React models the `jobok` callback (src/index.ts:64-74) only up to the call of `getLeastBusyWorker`. The scheduler has no such public method, so the model ends there with `MissingMethod` and invents nothing after it.
- Engine.CoolingTimerExpires models the timer body `reducePool(wid)` as the zero-argument `reducePool`, because JavaScript ignores the extra argument. The slot is never emptied, as in the source.
- Engine.RunJob always ends with `UndeclaredWid` once the job is queued, because src/scheduler.ts:40 returns an undeclared variable. Waiting for the job's result is not part of the source.
- WorkerSide.InitHandshakeMismatch shows that the two sides disagree on the init handshake. No end-to-end handshake is proved. The wrapper and the worker script are each modelled as written, but the controller is not: see the Scheduler.ExtendPool line below.
- EventEmitter.Trigger assumes that no callback throws. In the source a throw ends the trigger early: a throwing durable listener skips the rest of the durable ones, the one-shot reset and every one-shot listener, and a throwing one-shot listener skips the one-shot listeners after it, which the reset has already discarded. `_triggerEvent` is async and never awaited, so the throw does not reach the wrapper's message handler.
- EventEmitter.TriggerInvokes and the other trigger lemmas share that assumption. The `jobok` callback that Engine.React models throws. It is the only `jobok` listener the controller ever registers, because the timer slot is filled once and never emptied, so its throw skips no other listener.
- Median.PickMiddle states the even case as lying between the two middle elements. Median.PickMiddleRule states the exact index rule.
- Median.CalculateMedian works over real numbers. JavaScript number rounding, NaN and infinities are not modelled.
- Scheduler.ExtendPool states its requests only for a wrapper with no pending shutdown. The pool always passes a fresh one.
- Scheduler.ExtendPool feeds the wrapper a `{type:'ready'}` reply itself, and the worker script never posts one. As written, the script refuses the wrapper's `{type:'init'}` message (worker-src/index.ts:47-60), and would only ever post the bare string `'ready'`, which the wrapper refuses (src/worker-wrapper.ts:157-158). So in the source `start()` never resolves, `extendPool` never files the worker, and `startup` never returns: the target stays at 1 and the pool stays empty. Engine.SpawnOne, Engine.HeatUp, Engine.Startup, Engine.PreHeat and Engine.Handle therefore describe the runs the controller would make if the handshake completed. The source as written never reaches those runs.
- Engine.HeatUp states the pool's ids on success. The target, activity and invariant are in Engine.HeatUpReachesTarget, which needs the live size not to exceed the target beforehand.
- Engine.CoolDown states the new pool size only for an all-active pool, which the invariant guarantees.
- Engine.Handle treats an input whose supplied ids or durations do not fit the call as doing nothing, because the outside world never supplies such input.

## Findings

| source | as written | input that shows it | evidently intended | confidence | as-written member | corrected member |
|---|---|---|---|---|---|---|
| src/index.ts:32-34 | `shutdown` is `_coolDown(size)`, whose guards need target - size >= 1 and target - size >= size | any started controller in the steady state, e.g. one worker and a target of 1: 1 - 1 < 1 is underheat | shut the whole pool down with the guards bypassed, leaving the target at 0, which the heat-up guard reads as "already shut down" | high, not executed | Engine.ShutdownAsWrittenRefused | Engine.ShutdownEmptiesPool |
| src/index.ts:94-95 | `splice(20, length - 20)` after `push` drops everything from index 20 on, including the sample just pushed | 20 samples held, then a 21st duration: the sample stays the first 20 | a rolling sample keeping the latest 20 durations | medium, not executed | Engine.BacklogDropsNewest | Engine.RecordSpawnTime |

The controller's transition function (`Engine.Handle`) keeps both defects
above: it runs `Engine.ShutdownAsWritten`, and every spawn records its
duration with `Engine.RecordSpawnTimeAsWritten`. So `Engine.HandleKeepsInv`,
`Engine.HandleTimerSlot` and `Engine.ArmedAtMostOnce` hold for the controller
with these two defects. They hold on one condition, which the source does not
meet: that a spawned worker's init handshake completes (see the
Scheduler.ExtendPool line under "## Left out"). The corrected `Engine.Shutdown` and `Engine.RecordSpawnTime` are
separate definitions with their own proofs. After the corrected shutdown, a
later `startup` is refused too, by the heat-up guard whose message says the
engine has already been shut down. This is although `startup`'s own message
asks for `shutdown()` before a restart. The model does not decide between the
two.

=== FILE: basics.dfy ===
/** Failure-compatible wrappers shared by every module of the pool model. */
module Basics {

  /** A value that may be absent: JavaScript's `undefined` / `null`. */
  datatype Option<+T> = None | Some(value: T) {
    function GetOr(default: T): T {
      match this
      case Some(v) => v
      case None => default
    }
  }

  /** The outcome of an operation that may throw. */
  datatype Result<+R, +E> = Success(value: R) | Failure(error: E) {
    predicate IsFailure() {
      Failure?
    }

    function PropagateFailure<U>(): Result<U, E>
      requires Failure?
    {
      Failure(error)
    }

    function Extract(): R
      requires Success?
    {
      value
    }
  }

  /** Sequence concatenation regroups freely; stated once so that proofs can cite it. */
  lemma Associative<T>(a: seq<T>, b: seq<T>, c: seq<T>)
    ensures (a + b) + c == a + (b + c)
  {
  }
}

=== FILE: engine.dfy ===
/** The autoscaling controller (`RinzlerEngine`): the temperature model over the
    pool size (current, target, floor and ceiling), heat-up and cool-down with
    their guards, the spawn-time sample, and the single cooling timer armed by idle
    workers. Each `await` completes within the step that starts it. Fresh worker
    and job ids, timer handles and measured spawn durations are parameters. */
module Engine {
  import opened Basics
  import opened Protocol
  import WorkerWrapper
  import Scheduler

  /** Milliseconds an idle worker waits before the pool is reduced. */
  const CoolingDelay := 4000
  /** How many spawn durations are kept. */
  const BacklogSize := 20

  /** The arguments of `startup`: the work and init functions (code, not modelled)
      and the optional init message with its buffers. */
  datatype WorkerArgs = WorkerArgs(initArgs: Option<WorkerWrapper.InitArgs>)

  /** The cooling timer `[handle, wid]`; `pending` is false once it has fired or
      been cleared, and the slot itself is never emptied. */
  datatype Timer = Timer(handle: nat, wid: Scheduler.WorkerId, pending: bool)

  datatype Engine = Engine(
    maxTemp: int,
    targetTemp: int,
    minTemp: int,
    workerArgs: Option<WorkerArgs>,
    pool: Scheduler.Pool,
    draining: Scheduler.Pool,                // workers taken out of the pool, still finishing their jobs
    coolingTimer: Option<Timer>,
    jobOkWatch: Option<Scheduler.WorkerId>,  // the `once('jobok')` callback armed with the timer
    extendPoolTimes: seq<real>)

  /** What a transition asks of the outside world. */
  datatype Out =
    | ToWorker(wid: Scheduler.WorkerId, effect: WorkerWrapper.Effect)
    | SetTimeout(handle: nat, delay: nat)
    | ClearTimeout(handle: nat)

  /** The errors the controller throws, in the order of its guards. */
  datatype EngineError =
    | AlreadyStarted
    | NoWorkerArgs
    | Overheat
    | TooCold
    | Underheat
    | SubZero
    | JobRejected(error: Scheduler.SchedulerError)
    | UndeclaredWid
    | MissingMethod
    | WorkerFault(fault: WorkerWrapper.WorkerError)

  /** A transition's new state, its requests and the error it ends with, if any:
      state changed before a throw stays changed. */
  datatype Reply = Reply(engine: Engine, out: seq<Out>, error: Option<EngineError>)

  /** Attributes each of a wrapper's effects to its worker id. */
  function Tag(wid: Scheduler.WorkerId, effects: seq<WorkerWrapper.Effect>): (out: seq<Out>)
    ensures |out| == |effects|
    ensures forall i :: 0 <= i < |effects| ==> out[i] == ToWorker(wid, effects[i])
  {
    if |effects| == 0 then [] else [ToWorker(wid, effects[0])] + Tag(wid, effects[1..])
  }

  /** Requests that arm no timer. */
  predicate Quiet(out: seq<Out>) {
    forall i :: 0 <= i < |out| ==> !out[i].SetTimeout?
  }

  ghost predicate AllActive(pool: Scheduler.Pool) {
    forall i :: 0 <= i < |pool| ==> pool[i].worker.active
  }

  /** The controller's invariant: the ceiling is at least 1 and the floor is 1, the
      sample stays bounded, pool ids are distinct and every pooled worker is taking
      jobs; before `startup` nothing exists (a shutdown may already have set the
      target to 0), and afterwards the live pool never exceeds the target, nor the
      target the ceiling. */
  ghost predicate Inv(e: Engine) {
    && Core(e)
    && (e.workerArgs.None? ==>
          && (e.targetTemp == -1 || e.targetTemp == 0)
          && e.pool == [] && e.draining == [] && e.coolingTimer.None? && e.jobOkWatch.None?)
    && (e.workerArgs.Some? ==> 0 <= |e.pool| <= e.targetTemp <= e.maxTemp)
  }

  /** The part of the invariant that holds at every point, also inside `startup`. */
  ghost predicate Core(e: Engine) {
    && e.maxTemp >= 1
    && e.minTemp == 1
    && |e.extendPoolTimes| <= BacklogSize
    && Scheduler.ValidPool(e.pool)
    && AllActive(e.pool)
  }

  /** The constructor: the ceiling is one less than the reported core count when
      that is above 1, otherwise 1; the target starts at -1 and the floor at 1. */
  function NewEngine(hardwareConcurrency: Option<int>): (e: Engine)
    ensures Inv(e)
    ensures e.targetTemp == -1 && e.workerArgs.None?
    ensures hardwareConcurrency.Some? && hardwareConcurrency.value > 1 ==> e.maxTemp + 1 == hardwareConcurrency.value
    ensures !(hardwareConcurrency.Some? && hardwareConcurrency.value > 1) ==> e.maxTemp == 1
  {
    var max := if hardwareConcurrency.Some? && hardwareConcurrency.value > 1 then hardwareConcurrency.value - 1 else 1;
    Engine(max, -1, 1, None, [], [], None, None, [])
  }

  /** `_measureTemp`: the current temperature is the number of pooled workers. */
  function MeasureTemp(e: Engine): (t: nat)
    ensures t == |e.pool|
  {
    |e.pool|
  }

  /** `Array.prototype.splice(start, deleteCount)` for a start that is not negative:
      both are clamped to the array. */
  function Splice<T>(s: seq<T>, start: nat, deleteCount: int): (r: seq<T>)
    ensures var from := if start < |s| then start else |s|;
      var n := if deleteCount < 0 then 0 else if deleteCount > |s| - from then |s| - from else deleteCount;
      |r| == |s| - n && r == s[..from] + s[from + n..]
  {
    var from := if start < |s| then start else |s|;
    var n := if deleteCount < 0 then 0 else if deleteCount > |s| - from then |s| - from else deleteCount;
    s[..from] + s[from + n..]
  }

  /** Recording a spawn duration as the source does: push, then splice away
      everything from index 20 on. */
  function RecordSpawnTimeAsWritten(times: seq<real>, d: real): (r: seq<real>)
    ensures |r| == if |times| + 1 < BacklogSize then |times| + 1 else BacklogSize
    ensures r == (times + [d])[..|r|]
  {
    var t := times + [d];
    Splice(t, BacklogSize, |t| - BacklogSize)
  }

  /** Once 20 durations are held, a new one is discarded: the sample keeps the
      first 20 spawns ever made, not the latest. */
  lemma BacklogDropsNewest(times: seq<real>, d: real)
    requires |times| == BacklogSize
    ensures RecordSpawnTimeAsWritten(times, d) == times
    ensures d !in times ==> d !in RecordSpawnTimeAsWritten(times, d)
  {
    assert (times + [d])[..BacklogSize] == times;
  }

  /** Recording a spawn duration in a rolling sample: the newest duration is always
      kept, after at most 19 of the ones before it, oldest dropped first. */
  function RecordSpawnTime(times: seq<real>, d: real): (r: seq<real>)
    ensures |r| == if |times| + 1 < BacklogSize then |times| + 1 else BacklogSize
    ensures r[|r| - 1] == d
    ensures r[..|r| - 1] == times[|times| - (|r| - 1)..]
  {
    var t := times + [d];
    if |t| > BacklogSize then t[|t| - BacklogSize..] else t
  }

  /** Ids handed out by the id generator for new workers: non-empty, distinct and
      not used by any worker the controller knows of. */
  predicate FreshIds(e: Engine, ids: seq<Scheduler.WorkerId>) {
    && (forall i :: 0 <= i < |ids| ==> ids[i] != "" && ids[i] !in Scheduler.Ids(e.pool) && ids[i] !in Scheduler.Ids(e.draining))
    && (forall i, j :: 0 <= i < j < |ids| ==> ids[i] != ids[j])
  }

  /** x differs from e at most in its pool and its spawn-time sample. */
  predicate SameSettings(e: Engine, x: Engine) {
    && x.maxTemp == e.maxTemp && x.targetTemp == e.targetTemp && x.minTemp == e.minTemp
    && x.workerArgs == e.workerArgs && x.draining == e.draining
    && x.coolingTimer == e.coolingTimer && x.jobOkWatch == e.jobOkWatch
  }

  /** A spawn loop's outcome. */
  datatype Spawned = Spawned(engine: Engine, out: seq<Out>)

  /** The init post a freshly constructed wrapper sends. */
  function InitPost(args: WorkerArgs): WorkerWrapper.Effect {
    WorkerWrapper.Send(Post(WorkerWrapper.InitMessage(WorkerWrapper.New(args.initArgs)), []))
  }

  /** One round of the loop in `_heatUp`: construct a wrapper, extend the pool with
      it, register the `idle` listener and record how long that took. The wrapper
      fires its first `idle` during `start`, before the listener exists, so no round
      arms the cooling timer. */
  function SpawnOne(e: Engine, args: WorkerArgs, id: Scheduler.WorkerId, duration: real): (r: Spawned)
    requires id != "" && id !in Scheduler.Ids(e.pool)
    ensures |r.engine.pool| == |e.pool| + 1 && r.engine.pool == e.pool + [r.engine.pool[|e.pool|]]
    ensures r.engine.pool[|e.pool|].id == id
    ensures r.engine.pool[|e.pool|].worker.active && r.engine.pool[|e.pool|].worker.jobs == []
    ensures SameSettings(e, r.engine)
    ensures r.engine.extendPoolTimes == RecordSpawnTimeAsWritten(e.extendPoolTimes, duration)
    ensures r.out == [ToWorker(id, InitPost(args))]
  {
    var x := Scheduler.ExtendPool(e.pool, WorkerWrapper.New(args.initArgs), id);
    Spawned(
      e.(pool := x.pool, extendPoolTimes := RecordSpawnTimeAsWritten(e.extendPoolTimes, duration)),
      Tag(id, x.effects))
  }

  /** The loop of `_heatUp`, one round per id, in order. */
  function Spawn(e: Engine, args: WorkerArgs, ids: seq<Scheduler.WorkerId>, durations: seq<real>): (r: Spawned)
    requires |durations| == |ids| && FreshIds(e, ids)
    ensures Scheduler.Ids(r.engine.pool) == Scheduler.Ids(e.pool) + ids
    ensures r.engine.pool[..|e.pool|] == e.pool
    ensures |r.out| == |ids|
  {
    assert ids[..|ids|] == ids;
    Rounds(e, args, ids, durations, |ids|)
  }

  /** The first k rounds of the loop: the pool grows by the first k ids, in order,
      each new worker active with an empty queue and ids kept distinct; nothing
      but the pool and the sample changes, the sample stays bounded, and the only
      requests are one init post per new worker. */
  function Rounds(e: Engine, args: WorkerArgs, ids: seq<Scheduler.WorkerId>, durations: seq<real>, k: nat): (r: Spawned)
    requires |durations| == |ids| && FreshIds(e, ids) && k <= |ids|
    ensures Scheduler.Ids(r.engine.pool) == Scheduler.Ids(e.pool) + ids[..k]
    ensures |r.engine.pool| == |e.pool| + k
    ensures r.engine.pool[..|e.pool|] == e.pool
    ensures |r.out| == k
    ensures IdleFrom(r.engine.pool, |e.pool|)
    ensures Scheduler.ValidPool(e.pool) ==> Scheduler.ValidPool(r.engine.pool)
    ensures SameSettings(e, r.engine)
    ensures |e.extendPoolTimes| <= BacklogSize ==> |r.engine.extendPoolTimes| <= BacklogSize
    ensures forall i :: 0 <= i < k ==> r.out[i] == ToWorker(ids[i], InitPost(args))
    decreases k
  {
    if k == 0 then
      RoundsNone(e, args, ids);
      Spawned(e, [])
    else
      var prev := Rounds(e, args, ids, durations, k - 1);
      RoundFresh(e, prev.engine.pool, ids, k - 1);
      var one := SpawnOne(prev.engine, args, ids[k - 1], durations[k - 1]);
      RoundAdvance(e, args, ids, durations, k - 1, prev, one);
      Spawned(one.engine, prev.out + one.out)
  }

  /** No round yet: nothing has changed. */
  lemma RoundsNone(e: Engine, args: WorkerArgs, ids: seq<Scheduler.WorkerId>)
    ensures Scheduler.Ids(e.pool) == Scheduler.Ids(e.pool) + ids[..0]
    ensures e.pool[..|e.pool|] == e.pool
    ensures IdleFrom(e.pool, |e.pool|)
    ensures SameSettings(e, e)
  {
    assert ids[..0] == [];
  }

  /** Round k + 1 extends what the first k rounds established to k + 1 rounds. */
  lemma RoundAdvance(e: Engine, args: WorkerArgs, ids: seq<Scheduler.WorkerId>, durations: seq<real>, k: nat,
                     prev: Spawned, one: Spawned)
    requires |durations| == |ids| && k < |ids|
    requires Scheduler.Ids(prev.engine.pool) == Scheduler.Ids(e.pool) + ids[..k]
    requires |prev.engine.pool| == |e.pool| + k
    requires prev.engine.pool[..|e.pool|] == e.pool
    requires |prev.out| == k
    requires IdleFrom(prev.engine.pool, |e.pool|)
    requires Scheduler.ValidPool(e.pool) ==> Scheduler.ValidPool(prev.engine.pool)
    requires SameSettings(e, prev.engine)
    requires |e.extendPoolTimes| <= BacklogSize ==> |prev.engine.extendPoolTimes| <= BacklogSize
    requires forall i :: 0 <= i < k ==> prev.out[i] == ToWorker(ids[i], InitPost(args))
    requires ids[k] != "" && ids[k] !in Scheduler.Ids(prev.engine.pool)
    requires one == SpawnOne(prev.engine, args, ids[k], durations[k])
    ensures Scheduler.Ids(one.engine.pool) == Scheduler.Ids(e.pool) + ids[..k + 1]
    ensures |one.engine.pool| == |e.pool| + k + 1
    ensures one.engine.pool[..|e.pool|] == e.pool
    ensures |prev.out + one.out| == k + 1
    ensures IdleFrom(one.engine.pool, |e.pool|)
    ensures Scheduler.ValidPool(e.pool) ==> Scheduler.ValidPool(one.engine.pool)
    ensures SameSettings(e, one.engine)
    ensures |e.extendPoolTimes| <= BacklogSize ==> |one.engine.extendPoolTimes| <= BacklogSize
    ensures forall i :: 0 <= i < k + 1 ==> (prev.out + one.out)[i] == ToWorker(ids[i], InitPost(args))
  {
    var added := one.engine.pool[|prev.engine.pool|];
    RoundStep(e, prev.engine.pool, added, ids, k);
    RoundKeeps(e, args, ids, k, prev, one, added);
  }

  /** Round k's id is not yet in the pool the earlier rounds built. */
  lemma RoundFresh(e: Engine, prev: Scheduler.Pool, ids: seq<Scheduler.WorkerId>, k: nat)
    requires FreshIds(e, ids) && k < |ids|
    requires Scheduler.Ids(prev) == Scheduler.Ids(e.pool) + ids[..k]
    ensures ids[k] != "" && ids[k] !in Scheduler.Ids(prev)
  {
    assert ids[k] !in ids[..k];
  }

  lemma RoundStep(e: Engine, prev: Scheduler.Pool, added: Scheduler.Entry, ids: seq<Scheduler.WorkerId>, k: nat)
    requires k < |ids|
    requires Scheduler.Ids(prev) == Scheduler.Ids(e.pool) + ids[..k]
    requires prev[..|e.pool|] == e.pool
    requires added.id == ids[k]
    ensures Scheduler.Ids(prev + [added]) == Scheduler.Ids(e.pool) + ids[..k + 1]
    ensures (prev + [added])[..|e.pool|] == e.pool
  {
    assert ids[..k + 1] == ids[..k] + [ids[k]];
    Scheduler.IdsAppend(prev, added);
    Associative(Scheduler.Ids(e.pool), ids[..k], [ids[k]]);
    assert (prev + [added])[..|e.pool|] == prev[..|e.pool|];
  }

  /** One more round keeps what the earlier rounds established. */
  lemma RoundKeeps(e: Engine, args: WorkerArgs, ids: seq<Scheduler.WorkerId>, k: nat, prev: Spawned, one: Spawned, added: Scheduler.Entry)
    requires k < |ids| && |prev.out| == k
    requires IdleFrom(prev.engine.pool, |e.pool|)
    requires Scheduler.ValidPool(e.pool) ==> Scheduler.ValidPool(prev.engine.pool)
    requires SameSettings(e, prev.engine)
    requires forall i :: 0 <= i < k ==> prev.out[i] == ToWorker(ids[i], InitPost(args))
    requires added.id == ids[k] && ids[k] != "" && ids[k] !in Scheduler.Ids(prev.engine.pool)
    requires one.engine.pool == prev.engine.pool + [added]
    requires added.worker.active && added.worker.jobs == []
    requires SameSettings(prev.engine, one.engine)
    requires one.out == [ToWorker(ids[k], InitPost(args))]
    ensures IdleFrom(one.engine.pool, |e.pool|)
    ensures Scheduler.ValidPool(e.pool) ==> Scheduler.ValidPool(one.engine.pool)
    ensures SameSettings(e, one.engine)
    ensures forall i :: 0 <= i < k + 1 ==> (prev.out + one.out)[i] == ToWorker(ids[i], InitPost(args))
  {
    if Scheduler.ValidPool(e.pool) {
      ValidPoolAppend(prev.engine.pool, added);
    }
    forall i | 0 <= i < k + 1
      ensures (prev.out + one.out)[i] == ToWorker(ids[i], InitPost(args))
    {
      if i < k {
        assert (prev.out + one.out)[i] == prev.out[i];
      }
    }
  }

  /** The entries from `from` on are all active with an empty queue. */
  ghost predicate IdleFrom(pool: Scheduler.Pool, from: nat) {
    forall i :: from <= i < |pool| ==> pool[i].worker.active && pool[i].worker.jobs == []
  }

  lemma ValidPoolAppend(pool: Scheduler.Pool, added: Scheduler.Entry)
    requires Scheduler.ValidPool(pool) && added.id != "" && added.id !in Scheduler.Ids(pool)
    ensures Scheduler.ValidPool(pool + [added])
  {
    assert forall i :: 0 <= i < |pool| ==> Scheduler.Ids(pool)[i] != added.id;
  }

  /** `_heatUp(threadCount)`: the guards in order — no stored worker arguments,
      a target that would pass the ceiling, a target of 0 (shut down) — and
      otherwise the target becomes the live size plus the count (or the count when
      that sum is 0) and that many workers are spawned. */
  function HeatUp(e: Engine, n: int, ids: seq<Scheduler.WorkerId>, durations: seq<real>): (r: Reply)
    requires |ids| == (if n > 0 then n else 0) && |durations| == |ids| && FreshIds(e, ids)
    ensures r.error == Some(NoWorkerArgs) <==> e.workerArgs.None?
    ensures r.error == Some(Overheat) <==> e.workerArgs.Some? && e.targetTemp + n > e.maxTemp
    ensures r.error == Some(TooCold) <==> e.workerArgs.Some? && e.targetTemp + n <= e.maxTemp && e.targetTemp == 0
    ensures r.error.Some? ==> r.engine == e && r.out == []
    ensures r.error.None? ==>
      && Scheduler.Ids(r.engine.pool) == Scheduler.Ids(e.pool) + ids
      && r.engine.pool[..|e.pool|] == e.pool
      && |r.out| == |ids|
  {
    if e.workerArgs.None? then Reply(e, [], Some(NoWorkerArgs))
    else if e.targetTemp + n > e.maxTemp then Reply(e, [], Some(Overheat))
    else if e.targetTemp == 0 then Reply(e, [], Some(TooCold))
    else
      var s := Spawn(Heated(e, n), e.workerArgs.value, ids, durations);
      Reply(s.engine, s.out, None)
  }

  /** A heat-up asks only for init posts and leaves the timer slot alone. */
  lemma HeatUpQuiet(e: Engine, n: int, ids: seq<Scheduler.WorkerId>, durations: seq<real>)
    requires |ids| == (if n > 0 then n else 0) && |durations| == |ids| && FreshIds(e, ids)
    ensures HeatUp(e, n, ids, durations).engine.coolingTimer == e.coolingTimer
    ensures Quiet(HeatUp(e, n, ids, durations).out)
  {
    if HeatUp(e, n, ids, durations).error.None? {
      SpawnFacts(Heated(e, n), e.workerArgs.value, ids, durations);
    }
  }

  /** The controller as `_heatUp` leaves it before its loop: the target is the live
      size plus the count, or the count when that sum is 0 (JavaScript's `||`). */
  function Heated(e: Engine, n: int): Engine {
    var t := MeasureTemp(e) + n;
    e.(targetTemp := if t == 0 then n else t)
  }

  /** After a successful heat-up by n >= 0 workers, the target is exactly the new
      live size, which grew by n, and the invariant holds. This needs the live size
      not to exceed the target beforehand; the one exception is the first heat-up
      of `startup`, from the initial target of -1. */
  lemma HeatUpReachesTarget(e: Engine, n: int, ids: seq<Scheduler.WorkerId>, durations: seq<real>)
    requires Core(e) && e.workerArgs.Some? && n >= 0
    requires |e.pool| <= e.targetTemp || (e.targetTemp == -1 && e.pool == [] && n == 1)
    requires |ids| == n && |durations| == n && FreshIds(e, ids)
    ensures var r := HeatUp(e, n, ids, durations);
      r.error.None? ==> r.engine.targetTemp == |r.engine.pool| == |e.pool| + n && Inv(r.engine)
  {
    if e.targetTemp + n <= e.maxTemp && e.targetTemp != 0 {
      SpawnReachesTarget(e, n, ids, durations);
    }
  }

  lemma SpawnReachesTarget(e: Engine, n: int, ids: seq<Scheduler.WorkerId>, durations: seq<real>)
    requires Core(e) && e.workerArgs.Some? && n >= 0
    requires |e.pool| <= e.targetTemp || (e.targetTemp == -1 && e.pool == [] && n == 1)
    requires e.targetTemp + n <= e.maxTemp && e.targetTemp != 0
    requires |ids| == n && |durations| == n && FreshIds(e, ids)
    ensures var x := Spawn(Heated(e, n), e.workerArgs.value, ids, durations).engine;
      x.targetTemp == |x.pool| == |e.pool| + n && Inv(x)
  {
    var e1 := Heated(e, n);
    var x := Spawn(e1, e.workerArgs.value, ids, durations).engine;
    SpawnFacts(e1, e.workerArgs.value, ids, durations);
    assert |Scheduler.Ids(x.pool)| == |e.pool| + n;
    HeatedInv(e, n, x);
  }

  /** The invariant after the spawn loop of a heat-up, from the loop's effects
      alone. */
  lemma HeatedInv(e: Engine, n: int, x: Engine)
    requires Core(e) && e.workerArgs.Some? && n >= 0
    requires |e.pool| <= e.targetTemp || (e.targetTemp == -1 && e.pool == [] && n == 1)
    requires e.targetTemp + n <= e.maxTemp && e.targetTemp != 0
    requires SameSettings(Heated(e, n), x)
    requires |x.extendPoolTimes| <= BacklogSize
    requires |x.pool| == |e.pool| + n && x.pool[..|e.pool|] == e.pool
    requires Scheduler.ValidPool(x.pool) && IdleFrom(x.pool, |e.pool|)
    ensures x.targetTemp == |x.pool| && Inv(x)
  {
    ActiveJoin(x.pool, |e.pool|);
  }

  lemma ActiveJoin(pool: Scheduler.Pool, k: nat)
    requires k <= |pool| && AllActive(pool[..k]) && IdleFrom(pool, k)
    ensures AllActive(pool)
  {
    forall i | 0 <= i < |pool|
      ensures pool[i].worker.active
    {
      if i < k {
        assert pool[i] == pool[..k][i];
      }
    }
  }

  /** `startup`: refused while the pool has workers; otherwise the worker arguments
      are stored (even if the heat-up that follows throws) and one worker is
      started. */
  function Startup(e: Engine, args: WorkerArgs, ids: seq<Scheduler.WorkerId>, durations: seq<real>): (r: Reply)
    requires |ids| == 1 && |durations| == 1 && FreshIds(e, ids)
    ensures r.error == Some(AlreadyStarted) <==> |e.pool| > 0
    ensures |e.pool| > 0 ==> r.engine == e && r.out == []
    ensures |e.pool| == 0 ==> r.engine.workerArgs == Some(args)
    ensures |e.pool| == 0 && e.targetTemp != 0 && e.targetTemp + 1 <= e.maxTemp ==>
      && r.error.None?
      && |r.engine.pool| == 1
      && r.engine.pool[0].id == ids[0] && r.engine.pool[0].worker.active && r.engine.pool[0].worker.jobs == []
      && r.out == [ToWorker(ids[0], InitPost(args))]
    ensures r.engine.coolingTimer == e.coolingTimer
    ensures Quiet(r.out)
  {
    if |e.pool| > 0 then Reply(e, [], Some(AlreadyStarted))
    else
      var e1 := e.(workerArgs := Some(args));
      SpawnFacts(Heated(e1, 1), args, ids, durations);
      HeatUpQuiet(e1, 1, ids, durations);
      HeatUp(e1, 1, ids, durations)
  }

  lemma SpawnFacts(e: Engine, args: WorkerArgs, ids: seq<Scheduler.WorkerId>, durations: seq<real>)
    requires |durations| == |ids| && FreshIds(e, ids)
    ensures var r := Spawn(e, args, ids, durations);
      && IdleFrom(r.engine.pool, |e.pool|)
      && SameSettings(e, r.engine)
      && (|e.extendPoolTimes| <= BacklogSize ==> |r.engine.extendPoolTimes| <= BacklogSize)
      && (Scheduler.ValidPool(e.pool) ==> Scheduler.ValidPool(r.engine.pool))
      && (forall i :: 0 <= i < |ids| ==> r.out[i] == ToWorker(ids[i], InitPost(args)))
  {
    assert Spawn(e, args, ids, durations) == Rounds(e, args, ids, durations, |ids|);
  }

  /** A new controller starts: one worker, active and idle, and a target of 1. */
  lemma StartupFromNew(hardwareConcurrency: Option<int>, args: WorkerArgs, id: Scheduler.WorkerId, d: real)
    requires id != ""
    ensures var r := Startup(NewEngine(hardwareConcurrency), args, [id], [d]);
      && r.error.None?
      && r.engine.targetTemp == 1
      && |r.engine.pool| == 1 && r.engine.pool[0].id == id
      && r.engine.pool[0].worker.active && r.engine.pool[0].worker.jobs == []
      && Inv(r.engine)
  {
    StartupFromCold(NewEngine(hardwareConcurrency), args, [id], [d]);
  }

  /** The same from any controller that was never started. */
  lemma StartupFromCold(e: Engine, args: WorkerArgs, ids: seq<Scheduler.WorkerId>, durations: seq<real>)
    requires Inv(e) && e.workerArgs.None? && e.targetTemp == -1
    requires |ids| == 1 && |durations| == 1 && FreshIds(e, ids)
    ensures var r := Startup(e, args, ids, durations);
      && r.error.None?
      && r.engine.targetTemp == 1
      && |r.engine.pool| == 1 && r.engine.pool[0].id == ids[0]
      && r.engine.pool[0].worker.active && r.engine.pool[0].worker.jobs == []
      && Inv(r.engine)
  {
    var e1 := e.(workerArgs := Some(args));
    assert Startup(e, args, ids, durations) == HeatUp(e1, 1, ids, durations);
    HeatUpReachesTarget(e1, 1, ids, durations);
  }

  /** `preHeat`: heats up by the distance from the target to the ceiling, so it can
      never be refused as overheating. */
  function PreHeat(e: Engine, ids: seq<Scheduler.WorkerId>, durations: seq<real>): (r: Reply)
    requires var n := e.maxTemp - e.targetTemp; |ids| == (if n > 0 then n else 0)
    requires |durations| == |ids| && FreshIds(e, ids)
    ensures r.error != Some(Overheat)
    ensures r.engine.coolingTimer == e.coolingTimer
    ensures Quiet(r.out)
  {
    HeatUpQuiet(e, e.maxTemp - e.targetTemp, ids, durations);
    HeatUp(e, e.maxTemp - e.targetTemp, ids, durations)
  }

  /** From the steady state (target equal to the live size), pre-heating fills the
      pool to the ceiling. */
  lemma PreHeatFillsPool(e: Engine, ids: seq<Scheduler.WorkerId>, durations: seq<real>)
    requires Inv(e) && e.workerArgs.Some? && e.targetTemp == |e.pool| > 0
    requires |ids| == e.maxTemp - e.targetTemp && |durations| == |ids| && FreshIds(e, ids)
    ensures var r := PreHeat(e, ids, durations);
      r.error.None? && |r.engine.pool| == r.engine.targetTemp == e.maxTemp && Inv(r.engine)
  {
    HeatUpReachesTarget(e, e.maxTemp - e.targetTemp, ids, durations);
  }

  /** The ids of a pool, as a multiset: which workers it holds, in any order. */
  function Members(pool: Scheduler.Pool): multiset<Scheduler.WorkerId> {
    multiset(Scheduler.Ids(pool))
  }

  lemma MembersRemove(pool: Scheduler.Pool, k: int)
    requires 0 <= k < |pool|
    ensures Members(pool) == Members(pool[..k] + pool[k + 1..]) + multiset{pool[k].id}
  {
    var ids := Scheduler.Ids(pool);
    assert Scheduler.Ids(pool[..k] + pool[k + 1..]) == ids[..k] + ids[k + 1..];
    assert ids == ids[..k] + [ids[k]] + ids[k + 1..];
  }

  lemma ActiveRemove(pool: Scheduler.Pool, k: int)
    requires AllActive(pool) && 0 <= k < |pool|
    ensures AllActive(pool[..k] + pool[k + 1..])
  {
    var p := pool[..k] + pool[k + 1..];
    forall i | 0 <= i < |p|
      ensures p[i].worker.active
    {
      assert p[i] == pool[if i < k then i else i + 1];
    }
  }

  /** Entry k of `pool` was retired: it is the least-busy one, it left the pool with
      the other entries keeping their order, it joined the draining workers after
      its wrapper's `shutdown`, and that shutdown's requests went out under its id. */
  ghost predicate RetiredAt(pool: Scheduler.Pool, draining: Scheduler.Pool, k: int,
                            pool': Scheduler.Pool, draining': Scheduler.Pool, out: seq<Out>) {
    && Scheduler.IsLeastBusy(pool, k)
    && pool' == pool[..k] + pool[k + 1..]
    && draining' == draining + [Scheduler.Entry(pool[k].id, WorkerWrapper.Shutdown(pool[k].worker).worker)]
    && out == Tag(pool[k].id, WorkerWrapper.Shutdown(pool[k].worker).effects)
  }

  /** One `reducePool`: the least-busy worker is shut down and moves from the pool
      to the draining workers; with no active worker nothing changes. */
  function Retire(e: Engine): (r: Spawned)
    requires Scheduler.ValidPool(e.pool)
    ensures Scheduler.NoActive(e.pool) ==> r == Spawned(e, [])
    ensures !Scheduler.NoActive(e.pool) ==>
      exists k :: RetiredAt(e.pool, e.draining, k, r.engine.pool, r.engine.draining, r.out)
    ensures r.engine == e.(pool := r.engine.pool, draining := r.engine.draining)
    ensures Scheduler.ValidPool(r.engine.pool)
    ensures Members(r.engine.pool) + Members(r.engine.draining) == Members(e.pool) + Members(e.draining)
    ensures AllActive(e.pool) ==> AllActive(r.engine.pool)
    ensures AllActive(e.pool) ==> |r.engine.pool| == if |e.pool| == 0 then 0 else |e.pool| - 1
    ensures forall i :: 0 <= i < |r.out| ==> r.out[i].ToWorker?
  {
    var red := Scheduler.ReducePool(e.pool);
    match red.retired
    case None =>
      RetireNothing(e.pool);
      Spawned(e, [])
    case Some(entry) =>
      RetireFacts(e, red, entry);
      Spawned(e.(pool := red.pool, draining := e.draining + [entry]), Tag(entry.id, red.effects))
  }

  lemma RetireNothing(pool: Scheduler.Pool)
    requires Scheduler.ValidPool(pool) && Scheduler.ReducePool(pool).retired.None?
    ensures AllActive(pool) ==> pool == []
    ensures Scheduler.NoActive(pool)
  {
  }

  lemma RetireFacts(e: Engine, red: Scheduler.Reduced, entry: Scheduler.Entry)
    requires Scheduler.ValidPool(e.pool) && red == Scheduler.ReducePool(e.pool) && red.retired == Some(entry)
    ensures Scheduler.ValidPool(red.pool)
    ensures Members(red.pool) + Members(e.draining + [entry]) == Members(e.pool) + Members(e.draining)
    ensures AllActive(e.pool) ==> AllActive(red.pool) && |red.pool| == |e.pool| - 1
    ensures exists k :: RetiredAt(e.pool, e.draining, k, red.pool, e.draining + [entry], Tag(entry.id, red.effects))
  {
    var k := RetiredIndex(e.pool, red);
    assert RetiredAt(e.pool, e.draining, k, red.pool, e.draining + [entry], Tag(entry.id, red.effects));
    RetireMembers(e.pool, e.draining, k, entry);
    if AllActive(e.pool) {
      ActiveRemove(e.pool, k);
    }
  }

  lemma RetiredIndex(pool: Scheduler.Pool, red: Scheduler.Reduced) returns (k: int)
    requires Scheduler.ValidPool(pool) && red == Scheduler.ReducePool(pool) && red.retired.Some?
    ensures 0 <= k < |pool|
    ensures red.pool == pool[..k] + pool[k + 1..]
    ensures red.retired.value.id == pool[k].id
    ensures Scheduler.IsLeastBusy(pool, k)
    ensures red.retired.value == Scheduler.Entry(pool[k].id, WorkerWrapper.Shutdown(pool[k].worker).worker)
    ensures red.effects == WorkerWrapper.Shutdown(pool[k].worker).effects
  {
    k :| && Scheduler.IsLeastBusy(pool, k)
         && red.pool == pool[..k] + pool[k + 1..]
         && red.retired == Some(Scheduler.Entry(pool[k].id, WorkerWrapper.Shutdown(pool[k].worker).worker));
  }

  lemma RetireMembers(pool: Scheduler.Pool, draining: Scheduler.Pool, k: int, entry: Scheduler.Entry)
    requires 0 <= k < |pool| && entry.id == pool[k].id
    ensures Members(pool[..k] + pool[k + 1..]) + Members(draining + [entry]) == Members(pool) + Members(draining)
  {
    MembersRemove(pool, k);
    MembersAppend(draining, entry);
  }

  lemma MembersAppend(pool: Scheduler.Pool, entry: Scheduler.Entry)
    ensures Members(pool + [entry]) == Members(pool) + multiset{entry.id}
  {
    Scheduler.IdsAppend(pool, entry);
  }

  /** The loop of `_coolDown`: `reducePool` k times. */
  function ReduceTimes(e: Engine, k: int): (r: Spawned)
    requires Scheduler.ValidPool(e.pool)
    ensures r.engine == e.(pool := r.engine.pool, draining := r.engine.draining)
    ensures Scheduler.ValidPool(r.engine.pool)
    ensures Members(r.engine.pool) + Members(r.engine.draining) == Members(e.pool) + Members(e.draining)
    ensures AllActive(e.pool) ==> AllActive(r.engine.pool)
    ensures AllActive(e.pool) ==> |r.engine.pool| == if k <= 0 then |e.pool| else if |e.pool| <= k then 0 else |e.pool| - k
    ensures forall i :: 0 <= i < |r.out| ==> r.out[i].ToWorker?
    decreases k
  {
    if k <= 0 then Spawned(e, [])
    else
      var a := Retire(e);
      var b := ReduceTimes(a.engine, k - 1);
      ReduceKeeps(e, a, b, k);
      Spawned(b.engine, a.out + b.out)
  }

  /** A retirement followed by k - 1 more keeps what each of them keeps. */
  lemma ReduceKeeps(e: Engine, a: Spawned, b: Spawned, k: int)
    requires k > 0
    requires a.engine == e.(pool := a.engine.pool, draining := a.engine.draining)
    requires Members(a.engine.pool) + Members(a.engine.draining) == Members(e.pool) + Members(e.draining)
    requires AllActive(e.pool) ==> AllActive(a.engine.pool)
    requires AllActive(e.pool) ==> |a.engine.pool| == if |e.pool| == 0 then 0 else |e.pool| - 1
    requires forall i :: 0 <= i < |a.out| ==> a.out[i].ToWorker?
    requires b.engine == a.engine.(pool := b.engine.pool, draining := b.engine.draining)
    requires Members(b.engine.pool) + Members(b.engine.draining) == Members(a.engine.pool) + Members(a.engine.draining)
    requires AllActive(a.engine.pool) ==> AllActive(b.engine.pool)
    requires AllActive(a.engine.pool) ==>
      |b.engine.pool| == if k - 1 <= 0 then |a.engine.pool| else if |a.engine.pool| <= k - 1 then 0 else |a.engine.pool| - (k - 1)
    requires forall i :: 0 <= i < |b.out| ==> b.out[i].ToWorker?
    ensures b.engine == e.(pool := b.engine.pool, draining := b.engine.draining)
    ensures Members(b.engine.pool) + Members(b.engine.draining) == Members(e.pool) + Members(e.draining)
    ensures AllActive(e.pool) ==> AllActive(b.engine.pool)
    ensures AllActive(e.pool) ==> |b.engine.pool| == if |e.pool| <= k then 0 else |e.pool| - k
    ensures forall i :: 0 <= i < |a.out + b.out| ==> (a.out + b.out)[i].ToWorker?
  {
    forall i | 0 <= i < |a.out + b.out|
      ensures (a.out + b.out)[i].ToWorker?
    {
      if i < |a.out| {
        assert (a.out + b.out)[i] == a.out[i];
      } else {
        assert (a.out + b.out)[i] == b.out[i - |a.out|];
      }
    }
  }

  /** `_coolDown(threadCount)`: refused when the target minus the count would fall
      below the floor, or below the live size; otherwise the target becomes the
      live size minus the count and the pool is reduced that many times. */
  function CoolDown(e: Engine, n: int): (r: Reply)
    requires Scheduler.ValidPool(e.pool)
    ensures r.error == Some(Underheat) <==> e.targetTemp - n < e.minTemp
    ensures r.error == Some(SubZero) <==> e.targetTemp - n >= e.minTemp && e.targetTemp - n < |e.pool|
    ensures r.error.Some? ==> r.engine == e && r.out == []
    ensures r.error.None? ==> r.engine == e.(targetTemp := |e.pool| - n, pool := r.engine.pool, draining := r.engine.draining)
    ensures Members(r.engine.pool) + Members(r.engine.draining) == Members(e.pool) + Members(e.draining)
    ensures r.error.None? && AllActive(e.pool) ==>
      |r.engine.pool| == if n <= 0 then |e.pool| else if |e.pool| <= n then 0 else |e.pool| - n
    ensures Quiet(r.out)
  {
    if e.targetTemp - n < e.minTemp then Reply(e, [], Some(Underheat))
    else if e.targetTemp - n < MeasureTemp(e) then Reply(e, [], Some(SubZero))
    else
      var x := ReduceTimes(e.(targetTemp := MeasureTemp(e) - n), n);
      Reply(x.engine, x.out, None)
  }

  /** In the steady state, where the target equals the live size, every cool-down
      by one or more workers is refused: the second guard compares the reduced
      target with the unreduced live size. */
  lemma SteadyStateRefusesCoolDown(e: Engine, n: int)
    requires Scheduler.ValidPool(e.pool) && e.targetTemp == |e.pool| && n >= 1
    ensures CoolDown(e, n).error.Some?
    ensures CoolDown(e, n).engine == e
  {
  }

  /** `shutdown` as written: a cool-down by the live size. */
  function ShutdownAsWritten(e: Engine): (r: Reply)
    requires Scheduler.ValidPool(e.pool)
    ensures r.error.None? <==> e.targetTemp - |e.pool| >= e.minTemp && e.targetTemp >= 2 * |e.pool|
    ensures r.error.Some? ==> r.engine == e && r.out == []
    ensures r.error.None? ==> r.engine == e.(targetTemp := 0, pool := r.engine.pool, draining := r.engine.draining)
    ensures Members(r.engine.pool) + Members(r.engine.draining) == Members(e.pool) + Members(e.draining)
    ensures r.error.None? && AllActive(e.pool) ==> r.engine.pool == []
    ensures Quiet(r.out)
  {
    CoolDown(e, MeasureTemp(e))
  }

  /** `shutdown` as written keeps the invariant: refused, it changes nothing, and
      when it succeeds it empties the pool and leaves a target of 0. */
  lemma ShutdownAsWrittenKeepsInv(e: Engine)
    requires Inv(e)
    ensures Inv(ShutdownAsWritten(e).engine)
  {
  }

  /** As written, `shutdown` is refused as underheating both before `startup` and
      whenever the target equals the live size, so it cannot empty a pool that no
      timer has shrunk. */
  lemma ShutdownAsWrittenRefused(e: Engine)
    requires Inv(e)
    requires e.workerArgs.None? || e.targetTemp == |e.pool|
    ensures ShutdownAsWritten(e).error == Some(Underheat)
    ensures ShutdownAsWritten(e).engine == e
  {
  }

  /** The concrete case: a controller that has just started one worker cannot be
      shut down. */
  lemma StartThenShutdownAsWritten(hardwareConcurrency: Option<int>, args: WorkerArgs, id: Scheduler.WorkerId, d: real)
    requires id != ""
    ensures var started := Startup(NewEngine(hardwareConcurrency), args, [id], [d]).engine;
      && |started.pool| == 1
      && ShutdownAsWritten(started).error == Some(Underheat)
      && ShutdownAsWritten(started).engine.pool == started.pool
  {
    StartupFromNew(hardwareConcurrency, args, id, d);
    ShutdownAsWrittenRefused(Startup(NewEngine(hardwareConcurrency), args, [id], [d]).engine);
  }

  /** `shutdown` as intended: the whole pool is cooled down without the guards, so
      the target becomes 0 (the state the heat-up guard calls "already shut down")
      and every pooled worker is shut down and moved to the draining workers. */
  function Shutdown(e: Engine): (r: Reply)
    requires Scheduler.ValidPool(e.pool)
    ensures r.error.None? && r.engine.targetTemp == 0
    ensures AllActive(e.pool) ==> r.engine.pool == []
    ensures Members(r.engine.pool) + Members(r.engine.draining) == Members(e.pool) + Members(e.draining)
    ensures r.engine == e.(targetTemp := 0, pool := r.engine.pool, draining := r.engine.draining)
    ensures Quiet(r.out)
  {
    var x := ReduceTimes(e.(targetTemp := 0), MeasureTemp(e));
    Reply(x.engine, x.out, None)
  }

  /** After the intended shutdown a started controller refuses every later heat-up
      that does not overheat as too cold. */
  lemma ShutdownIsFinal(e: Engine, n: int, ids: seq<Scheduler.WorkerId>, durations: seq<real>)
    requires Inv(e) && e.workerArgs.Some? && n <= e.maxTemp
    requires |ids| == (if n > 0 then n else 0) && |durations| == |ids| && FreshIds(Shutdown(e).engine, ids)
    ensures HeatUp(Shutdown(e).engine, n, ids, durations).error == Some(TooCold)
  {
    var s := Shutdown(e).engine;
    assert s.workerArgs == e.workerArgs && s.targetTemp == 0 && s.maxTemp == e.maxTemp;
  }

  /** After the intended shutdown no worker is pooled, none is lost, and the
      invariant holds. */
  lemma ShutdownEmptiesPool(e: Engine)
    requires Inv(e)
    ensures var s := Shutdown(e).engine;
      && s.pool == []
      && Members(s.draining) == Members(e.pool) + Members(e.draining)
      && Inv(s)
  {
    var s := Shutdown(e).engine;
    assert Members(s.pool) == multiset{};
    if e.workerArgs.None? {
      NoMembers(s.draining);
    }
  }

  lemma NoMembers(pool: Scheduler.Pool)
    requires Members(pool) == multiset{}
    ensures pool == []
  {
    assert |Members(pool)| == |Scheduler.Ids(pool)|;
  }

  /** `runJob`: the job goes to the least-busy worker, as the scheduler's
      `submitJob` decides; then the scheduler's return statement names an undeclared
      variable, so the call ends in a ReferenceError even though the job was queued.
      With no active worker the scheduler fails first. */
  function RunJob(e: Engine, message: Payload, transfer: Option<seq<Buffer>>, jobId: JobId): (r: Reply)
    requires Scheduler.ValidPool(e.pool)
    ensures r.error == Some(JobRejected(Scheduler.NoWorker)) <==> Scheduler.NoActive(e.pool)
    ensures Scheduler.NoActive(e.pool) ==> r.engine == e && r.out == []
    ensures !Scheduler.NoActive(e.pool) ==>
      && r.error == Some(UndeclaredWid)
      && r.engine == e.(pool := r.engine.pool)
      && |r.engine.pool| == |e.pool|
      && exists k :: && Scheduler.IsLeastBusy(e.pool, k)
                     && r.engine.pool[k].worker.jobs == e.pool[k].worker.jobs + [Job(jobId, message, transfer)]
                     && (forall j :: 0 <= j < |e.pool| && j != k ==> r.engine.pool[j] == e.pool[j])
    ensures Quiet(r.out)
  {
    match Scheduler.SubmitJob(e.pool, message, transfer, jobId)
    case Failure(err) => Reply(e, [], Some(JobRejected(err)))
    case Success(sub) => Reply(e.(pool := sub.pool), Tag(sub.workerId, sub.effects), Some(UndeclaredWid))
  }

  /** On a started controller with a live pool, `runJob` always queues the job. */
  lemma RunJobQueues(e: Engine, message: Payload, transfer: Option<seq<Buffer>>, jobId: JobId)
    requires Inv(e) && |e.pool| > 0
    ensures RunJob(e, message, transfer, jobId).error == Some(UndeclaredWid)
    ensures Inv(RunJob(e, message, transfer, jobId).engine)
  {
    assert e.pool[0].worker.active;
    var r := RunJob(e, message, transfer, jobId);
    var sub := Scheduler.SubmitJob(e.pool, message, transfer, jobId).value;
    assert r.engine.pool == sub.pool;
    forall i | 0 <= i < |sub.pool|
      ensures sub.pool[i].worker.active
    {
      var k :| Scheduler.IsLeastBusy(e.pool, k) && sub.workerId == e.pool[k].id && sub.pool[k].worker.active
               && (forall j :: 0 <= j < |e.pool| && j != k ==> sub.pool[j] == e.pool[j]);
      if i != k {
        assert sub.pool[i] == e.pool[i];
      }
    }
  }

  /** `_idleWorkerListener(wid)`: while the timer slot holds anything nothing
      happens; otherwise a 4000 ms timer is armed and tagged with the worker, and a
      one-shot `jobok` callback is registered on it if it is still pooled. */
  function IdleWorkerListener(e: Engine, wid: Scheduler.WorkerId, handle: nat): (r: Reply)
    ensures r.error.None?
    ensures e.coolingTimer.Some? ==> r == Reply(e, [], None)
    ensures e.coolingTimer.None? ==>
      && r.engine.coolingTimer == Some(Timer(handle, wid, true))
      && r.out == [SetTimeout(handle, CoolingDelay)]
      && r.engine == e.(coolingTimer := r.engine.coolingTimer, jobOkWatch := r.engine.jobOkWatch)
      && (Scheduler.Get(e.pool, wid).Some? ==> r.engine.jobOkWatch == Some(wid))
  {
    if e.coolingTimer.Some? then Reply(e, [], None)
    else
      var watch := if Scheduler.Get(e.pool, wid).Some? then Some(wid) else e.jobOkWatch;
      Reply(e.(coolingTimer := Some(Timer(handle, wid, true)), jobOkWatch := watch), [SetTimeout(handle, CoolingDelay)], None)
  }

  /** The listeners the controller has on a wrapper, run on the events one message
      made it fire: the `idle` listener registered in `_heatUp`, and the one-shot
      `jobok` callback of `_idleWorkerListener`. That callback clears the timer
      tagged with its worker and then calls a scheduler method that does not exist. */
  function React(e: Engine, wid: Scheduler.WorkerId, fired: seq<WorkerWrapper.Event>, handle: nat): (r: Reply)
    ensures r.engine == e.(coolingTimer := r.engine.coolingTimer, jobOkWatch := r.engine.jobOkWatch)
    ensures e.coolingTimer.Some? ==> r.engine.coolingTimer.Some?
    ensures Quiet(r.out) || (e.coolingTimer.None? && r.engine.coolingTimer.Some? && r.out == [SetTimeout(handle, CoolingDelay)])
    ensures && WorkerWrapper.Idle !in fired && WorkerWrapper.JobOk in fired && e.jobOkWatch == Some(wid)
            && e.coolingTimer.Some? && e.coolingTimer.value.wid == wid ==>
      && r.error == Some(MissingMethod)
      && r.out == [ClearTimeout(e.coolingTimer.value.handle)]
      && r.engine.coolingTimer == Some(e.coolingTimer.value.(pending := false))
      && r.engine.jobOkWatch.None?
    ensures r.error.Some? ==> r.error == Some(MissingMethod)
    ensures WorkerWrapper.Idle in fired && e.coolingTimer.None? ==>
      r.engine.coolingTimer == Some(Timer(handle, wid, true)) && r.out == [SetTimeout(handle, CoolingDelay)]
    ensures WorkerWrapper.Idle in fired && e.coolingTimer.Some? ==> r == Reply(e, [], None)
    ensures WorkerWrapper.Idle !in fired ==> Quiet(r.out)
    ensures WorkerWrapper.Idle !in fired && !(WorkerWrapper.JobOk in fired && e.jobOkWatch == Some(wid)) ==>
      r == Reply(e, [], None)
    ensures && WorkerWrapper.Idle !in fired && WorkerWrapper.JobOk in fired && e.jobOkWatch == Some(wid)
            && !(e.coolingTimer.Some? && e.coolingTimer.value.wid == wid) ==>
      r == Reply(e.(jobOkWatch := None), [], None)
  {
    if WorkerWrapper.Idle in fired then IdleWorkerListener(e, wid, handle)
    else if WorkerWrapper.JobOk in fired && e.jobOkWatch == Some(wid) then
      var e1 := e.(jobOkWatch := None);
      match e.coolingTimer
      case Some(t) =>
        if t.wid == wid then
          Reply(e1.(coolingTimer := Some(t.(pending := false))), [ClearTimeout(t.handle)], Some(MissingMethod))
        else Reply(e1, [], None)
      case None => Reply(e1, [], None)
    else Reply(e, [], None)
  }

  /** A message from worker `wid` reaches its wrapper (pooled or draining); the
      wrapper's requests go out and the controller's listeners react. A message the
      wrapper does not recognise makes it throw and changes nothing. */
  function OnWorkerMessage(e: Engine, wid: Scheduler.WorkerId, msg: Message, handle: nat): (r: Reply)
    ensures r.engine == e.(pool := r.engine.pool, draining := r.engine.draining,
                           coolingTimer := r.engine.coolingTimer, jobOkWatch := r.engine.jobOkWatch)
    ensures Scheduler.Get(e.pool, wid).None? && Scheduler.Get(e.draining, wid).None? ==> r == Reply(e, [], None)
    ensures Scheduler.Ids(r.engine.pool) == Scheduler.Ids(e.pool)
    ensures Scheduler.Ids(r.engine.draining) == Scheduler.Ids(e.draining)
    ensures AllActive(e.pool) ==> AllActive(r.engine.pool)
    ensures e.coolingTimer.Some? ==> r.engine.coolingTimer.Some?
    ensures Scheduler.Get(e.pool, wid).Some? ==> r == Deliver(e, wid, Scheduler.Get(e.pool, wid).value, true, msg, handle)
    ensures Scheduler.Get(e.pool, wid).None? && Scheduler.Get(e.draining, wid).Some? ==>
      r == Deliver(e, wid, Scheduler.Get(e.draining, wid).value, false, msg, handle)
    ensures !(msg.ReadyCall? || msg.JobAcceptCall? || msg.JobReturnCall?) && (Scheduler.Get(e.pool, wid).Some? || Scheduler.Get(e.draining, wid).Some?) ==>
      r == Reply(e, [], Some(WorkerFault(WorkerWrapper.UnknownMessage)))
    ensures || Quiet(r.out)
            || (&& e.coolingTimer.None? && r.engine.coolingTimer.Some? && |r.out| > 0
                && Quiet(r.out[..|r.out| - 1]) && r.out[|r.out| - 1] == SetTimeout(handle, CoolingDelay))
  {
    match Scheduler.Get(e.pool, wid)
    case Some(w) => DeliverArmsLast(e, wid, w, true, msg, handle); Deliver(e, wid, w, true, msg, handle)
    case None =>
      match Scheduler.Get(e.draining, wid)
      case Some(w) => DeliverArmsLast(e, wid, w, false, msg, handle); Deliver(e, wid, w, false, msg, handle)
      case None => Reply(e, [], None)
  }

  /** The message reaches wrapper `w`, registered under `wid` among the pooled
      workers when `pooled` holds and among the draining ones otherwise. */
  function Deliver(e: Engine, wid: Scheduler.WorkerId, w: WorkerWrapper.Worker, pooled: bool, msg: Message, handle: nat): (r: Reply)
    requires pooled ==> Scheduler.Get(e.pool, wid) == Some(w)
    requires !pooled ==> Scheduler.Get(e.draining, wid) == Some(w)
    ensures r.engine == e.(pool := r.engine.pool, draining := r.engine.draining,
                           coolingTimer := r.engine.coolingTimer, jobOkWatch := r.engine.jobOkWatch)
    ensures !pooled ==> r.engine.pool == e.pool
    ensures pooled ==> r.engine.draining == e.draining
    ensures Scheduler.Ids(r.engine.pool) == Scheduler.Ids(e.pool)
    ensures Scheduler.Ids(r.engine.draining) == Scheduler.Ids(e.draining)
    ensures AllActive(e.pool) ==> AllActive(r.engine.pool)
    ensures e.coolingTimer.Some? ==> r.engine.coolingTimer.Some?
    ensures WorkerWrapper.Receive(w, msg).Failure? ==> r == Reply(e, [], Some(WorkerFault(WorkerWrapper.Receive(w, msg).error)))
    ensures WorkerWrapper.Receive(w, msg).Success? ==>
      var step := WorkerWrapper.Receive(w, msg).value;
      && (pooled ==> Replaced(e.pool, wid, step.worker, r.engine.pool))
      && (!pooled ==> Replaced(e.draining, wid, step.worker, r.engine.draining))
      && |step.effects| <= |r.out|
      && r.out[..|step.effects|] == Tag(wid, step.effects)
    ensures WorkerWrapper.Receive(w, msg).Success? ==>
      var step := WorkerWrapper.Receive(w, msg).value;
      && r.out[|step.effects|..] == React(e, wid, step.fired, handle).out
      && r.error == React(e, wid, step.fired, handle).error
      && r.engine.coolingTimer == React(e, wid, step.fired, handle).engine.coolingTimer
      && r.engine.jobOkWatch == React(e, wid, step.fired, handle).engine.jobOkWatch
  {
    match WorkerWrapper.Receive(w, msg)
    case Failure(err) => Reply(e, [], Some(WorkerFault(err)))
    case Success(step) =>
      ReceiveKeepsActive(w, msg);
      TakeStep(e, wid, w, pooled, step, handle)
  }

  /** A delivery arms at most one timer, as its last request. */
  lemma DeliverArmsLast(e: Engine, wid: Scheduler.WorkerId, w: WorkerWrapper.Worker, pooled: bool, msg: Message, handle: nat)
    requires pooled ==> Scheduler.Get(e.pool, wid) == Some(w)
    requires !pooled ==> Scheduler.Get(e.draining, wid) == Some(w)
    ensures var r := Deliver(e, wid, w, pooled, msg, handle);
      || Quiet(r.out)
      || (&& e.coolingTimer.None? && r.engine.coolingTimer.Some? && |r.out| > 0
          && Quiet(r.out[..|r.out| - 1]) && r.out[|r.out| - 1] == SetTimeout(handle, CoolingDelay))
  {
    var received := WorkerWrapper.Receive(w, msg);
    if received.Success? {
      ReceiveKeepsActive(w, msg);
      assert Deliver(e, wid, w, pooled, msg, handle) == TakeStep(e, wid, w, pooled, received.value, handle);
    } else {
      assert Deliver(e, wid, w, pooled, msg, handle).out == [];
    }
  }

  /** Wrapper `w` took `step`: its successor replaces it, its requests go out under
      its id, and then the controller's listeners react to the events it fired. */
  function TakeStep(e: Engine, wid: Scheduler.WorkerId, w: WorkerWrapper.Worker, pooled: bool,
                    step: WorkerWrapper.Step, handle: nat): (r: Reply)
    requires pooled ==> Scheduler.Get(e.pool, wid) == Some(w)
    requires !pooled ==> Scheduler.Get(e.draining, wid) == Some(w)
    requires w.active ==> step.worker.active
    ensures r.engine == e.(pool := r.engine.pool, draining := r.engine.draining,
                           coolingTimer := r.engine.coolingTimer, jobOkWatch := r.engine.jobOkWatch)
    ensures pooled ==> Replaced(e.pool, wid, step.worker, r.engine.pool) && r.engine.draining == e.draining
    ensures !pooled ==> Replaced(e.draining, wid, step.worker, r.engine.draining) && r.engine.pool == e.pool
    ensures Scheduler.Ids(r.engine.pool) == Scheduler.Ids(e.pool)
    ensures Scheduler.Ids(r.engine.draining) == Scheduler.Ids(e.draining)
    ensures AllActive(e.pool) ==> AllActive(r.engine.pool)
    ensures |step.effects| <= |r.out|
    ensures r.out[..|step.effects|] == Tag(wid, step.effects)
    ensures r.out[|step.effects|..] == React(e, wid, step.fired, handle).out
    ensures r.error == React(e, wid, step.fired, handle).error
    ensures r.engine.coolingTimer == React(e, wid, step.fired, handle).engine.coolingTimer
    ensures r.engine.jobOkWatch == React(e, wid, step.fired, handle).engine.jobOkWatch
    ensures || Quiet(r.out)
            || (&& e.coolingTimer.None? && r.engine.coolingTimer.Some? && |r.out| > 0
                && Quiet(r.out[..|r.out| - 1]) && r.out[|r.out| - 1] == SetTimeout(handle, CoolingDelay))
  {
    var e1 := Install(e, wid, w, step.worker, pooled);
    var reaction := React(e1, wid, step.fired, handle);
    ReactSeesOnlyIds(e, e1, wid, step.fired, handle);
    QuietJoin(Tag(wid, step.effects), reaction.out);
    Reply(reaction.engine, Tag(wid, step.effects) + reaction.out, reaction.error)
  }

  /** The controller with the wrapper under `wid` (pooled or draining) replaced by
      its successor `w'`. */
  function Install(e: Engine, wid: Scheduler.WorkerId, w: WorkerWrapper.Worker, w': WorkerWrapper.Worker, pooled: bool): (e1: Engine)
    requires pooled ==> Scheduler.Get(e.pool, wid) == Some(w)
    requires !pooled ==> Scheduler.Get(e.draining, wid) == Some(w)
    requires w.active ==> w'.active
    ensures e1 == e.(pool := e1.pool, draining := e1.draining)
    ensures pooled ==> Replaced(e.pool, wid, w', e1.pool) && e1.draining == e.draining
    ensures !pooled ==> Replaced(e.draining, wid, w', e1.draining) && e1.pool == e.pool
    ensures Scheduler.Ids(e1.pool) == Scheduler.Ids(e.pool)
    ensures Scheduler.Ids(e1.draining) == Scheduler.Ids(e.draining)
    ensures AllActive(e.pool) ==> AllActive(e1.pool)
  {
    if pooled then
      SetWorkerFacts(e.pool, wid, w', Some(w));
      e.(pool := Scheduler.SetWorker(e.pool, wid, w'))
    else
      SetWorkerFacts(e.draining, wid, w', Some(w));
      e.(draining := Scheduler.SetWorker(e.draining, wid, w'))
  }

  /** `pool'` is `pool` with the wrapper under `wid` replaced by `w`: every entry
      keeps its place and id, and only the one under `wid` changes. */
  ghost predicate Replaced(pool: Scheduler.Pool, wid: Scheduler.WorkerId, w: WorkerWrapper.Worker, pool': Scheduler.Pool) {
    && |pool'| == |pool|
    && forall i :: 0 <= i < |pool| ==> pool'[i] == (if pool[i].id == wid then Scheduler.Entry(wid, w) else pool[i])
  }

  /** The controller's listeners see the workers only through their ids: replacing
      wrappers without changing any id leaves their reaction as it was. */
  lemma ReactSeesOnlyIds(e: Engine, e1: Engine, wid: Scheduler.WorkerId, fired: seq<WorkerWrapper.Event>, handle: nat)
    requires e1 == e.(pool := e1.pool, draining := e1.draining)
    requires Scheduler.Ids(e1.pool) == Scheduler.Ids(e.pool)
    ensures React(e1, wid, fired, handle).out == React(e, wid, fired, handle).out
    ensures React(e1, wid, fired, handle).error == React(e, wid, fired, handle).error
    ensures React(e1, wid, fired, handle).engine
         == React(e, wid, fired, handle).engine.(pool := e1.pool, draining := e1.draining)
  {
    assert Scheduler.Get(e1.pool, wid).Some? <==> Scheduler.Get(e.pool, wid).Some?;
  }

  lemma QuietJoin(a: seq<Out>, b: seq<Out>)
    requires forall i :: 0 <= i < |a| ==> a[i].ToWorker?
    ensures (a + b)[..|a|] == a && (a + b)[|a|..] == b
    ensures Quiet(b) ==> Quiet(a + b)
    ensures |b| == 1 ==> (a + b)[..|a + b| - 1] == a && Quiet(a)
  {
  }

  lemma ReceiveKeepsActive(w: WorkerWrapper.Worker, msg: Message)
    ensures WorkerWrapper.Receive(w, msg).Success? && w.active ==> WorkerWrapper.Receive(w, msg).value.worker.active
  {
  }

  lemma SetWorkerFacts(pool: Scheduler.Pool, wid: Scheduler.WorkerId, w: WorkerWrapper.Worker, prior: Option<WorkerWrapper.Worker>)
    requires prior == Scheduler.Get(pool, wid)
    requires prior.Some? ==> (prior.value.active ==> w.active)
    ensures Scheduler.Ids(Scheduler.SetWorker(pool, wid, w)) == Scheduler.Ids(pool)
    ensures AllActive(pool) ==> AllActive(Scheduler.SetWorker(pool, wid, w))
  {
    var p := Scheduler.SetWorker(pool, wid, w);
    if AllActive(pool) {
      forall i | 0 <= i < |p|
        ensures p[i].worker.active
      {
        if pool[i].id == wid {
          assert prior.Some? && prior.value.active by {
            assert wid in Scheduler.Ids(pool);
          }
        }
      }
    }
  }

  /** The timer with this handle is armed and has neither fired nor been cleared. */
  predicate Fires(e: Engine, handle: nat) {
    e.coolingTimer.Some? && e.coolingTimer.value.handle == handle && e.coolingTimer.value.pending
  }

  /** The cooling timer expiring: `reducePool` is called with the tagged id, which it
      ignores, so the least-busy worker is retired, whichever it is; the target is
      not lowered and the timer slot is not emptied. A timer that already fired or
      was cleared does nothing. */
  function CoolingTimerExpires(e: Engine, handle: nat): (r: Reply)
    requires Scheduler.ValidPool(e.pool)
    ensures r.error.None?
    ensures r.engine == e.(pool := r.engine.pool, draining := r.engine.draining, coolingTimer := r.engine.coolingTimer)
    ensures e.coolingTimer.Some? ==> r.engine.coolingTimer.Some?
    ensures SetTimeout(handle, CoolingDelay) !in r.out
    ensures !Fires(e, handle) ==> r == Reply(e, [], None)
    ensures Quiet(r.out)
    ensures Scheduler.ValidPool(r.engine.pool)
    ensures AllActive(e.pool) ==> AllActive(r.engine.pool) && |r.engine.pool| <= |e.pool|
    ensures Fires(e, handle) ==> r.engine.coolingTimer == Some(e.coolingTimer.value.(pending := false))
    ensures Fires(e, handle) && Scheduler.NoActive(e.pool) ==>
      r.engine.pool == e.pool && r.engine.draining == e.draining && r.out == []
    ensures Fires(e, handle) && !Scheduler.NoActive(e.pool) ==>
      exists k :: RetiredAt(e.pool, e.draining, k, r.engine.pool, r.engine.draining, r.out)
  {
    match e.coolingTimer
    case Some(t) =>
      if t.handle == handle && t.pending then
        var x := Retire(e.(coolingTimer := Some(t.(pending := false))));
        Reply(x.engine, x.out, None)
      else Reply(e, [], None)
    case None => Reply(e, [], None)
  }

  /** The calls the controller receives, with what the outside world supplies for
      them: fresh worker ids and measured spawn durations, fresh job ids, timer
      handles. */
  datatype Input =
    | StartupIn(args: WorkerArgs, ids: seq<Scheduler.WorkerId>, durations: seq<real>)
    | PreHeatIn(ids: seq<Scheduler.WorkerId>, durations: seq<real>)
    | ShutdownIn
    | RunJobIn(message: Payload, transfer: Option<seq<Buffer>>, jobId: JobId)
    | MessageIn(wid: Scheduler.WorkerId, msg: Message, handle: nat)
    | TimerIn(handle: nat)

  /** The supplied ids and durations match what the call consumes. */
  predicate Fits(e: Engine, input: Input) {
    match input
    case StartupIn(_, ids, durations) => |ids| == 1 && |durations| == 1 && FreshIds(e, ids)
    case PreHeatIn(ids, durations) =>
      var n := e.maxTemp - e.targetTemp;
      |ids| == (if n > 0 then n else 0) && |durations| == |ids| && FreshIds(e, ids)
    case _ => true
  }

  /** One transition of the controller; input the outside world could not have
      supplied changes nothing. */
  function Handle(e: Engine, input: Input): (r: Reply)
    requires Scheduler.ValidPool(e.pool)
  {
    if !Fits(e, input) then Reply(e, [], None)
    else
      match input
      case StartupIn(args, ids, durations) => Startup(e, args, ids, durations)
      case PreHeatIn(ids, durations) => PreHeat(e, ids, durations)
      case ShutdownIn => ShutdownAsWritten(e)
      case RunJobIn(message, transfer, jobId) => RunJob(e, message, transfer, jobId)
      case MessageIn(wid, msg, handle) => OnWorkerMessage(e, wid, msg, handle)
      case TimerIn(handle) => CoolingTimerExpires(e, handle)
  }

  /** Every transition keeps the controller's invariant. */
  lemma HandleKeepsInv(e: Engine, input: Input)
    requires Inv(e)
    ensures Inv(Handle(e, input).engine)
  {
    if Fits(e, input) {
      match input
      case StartupIn(args, ids, durations) =>
        StartupKeepsInv(e, args, ids, durations);
      case PreHeatIn(ids, durations) =>
        PreHeatKeepsInv(e, ids, durations);
      case ShutdownIn =>
        ShutdownAsWrittenKeepsInv(e);
      case RunJobIn(message, transfer, jobId) =>
        RunJobKeepsInv(e, message, transfer, jobId);
      case MessageIn(wid, msg, handle) =>
        MessageKeepsInv(e, wid, msg, handle);
      case TimerIn(handle) =>
        TimerKeepsInv(e, handle);
    }
  }

  lemma StartupKeepsInv(e: Engine, args: WorkerArgs, ids: seq<Scheduler.WorkerId>, durations: seq<real>)
    requires Inv(e) && |ids| == 1 && |durations| == 1 && FreshIds(e, ids)
    ensures Inv(Startup(e, args, ids, durations).engine)
  {
    if |e.pool| == 0 {
      var e1 := e.(workerArgs := Some(args));
      assert Startup(e, args, ids, durations) == HeatUp(e1, 1, ids, durations);
      HeatUpReachesTarget(e1, 1, ids, durations);
    }
  }

  lemma PreHeatKeepsInv(e: Engine, ids: seq<Scheduler.WorkerId>, durations: seq<real>)
    requires Inv(e)
    requires var n := e.maxTemp - e.targetTemp; |ids| == (if n > 0 then n else 0)
    requires |durations| == |ids| && FreshIds(e, ids)
    ensures Inv(PreHeat(e, ids, durations).engine)
  {
    HeatUpKeepsInv(e, e.maxTemp - e.targetTemp, ids, durations);
  }

  /** A heat-up by a non-negative count keeps the invariant: refused, it changes
      nothing, and otherwise the pool grows to the new target. */
  lemma HeatUpKeepsInv(e: Engine, n: int, ids: seq<Scheduler.WorkerId>, durations: seq<real>)
    requires Inv(e) && 0 <= n && |ids| == n && |durations| == n && FreshIds(e, ids)
    ensures Inv(HeatUp(e, n, ids, durations).engine)
  {
    if HeatUp(e, n, ids, durations).error.None? {
      HeatUpReachesTarget(e, n, ids, durations);
    }
  }

  lemma RunJobKeepsInv(e: Engine, message: Payload, transfer: Option<seq<Buffer>>, jobId: JobId)
    requires Inv(e)
    ensures Inv(RunJob(e, message, transfer, jobId).engine)
  {
    if |e.pool| > 0 {
      RunJobQueues(e, message, transfer, jobId);
    }
  }

  lemma MessageKeepsInv(e: Engine, wid: Scheduler.WorkerId, msg: Message, handle: nat)
    requires Inv(e)
    ensures Inv(OnWorkerMessage(e, wid, msg, handle).engine)
  {
    var r := OnWorkerMessage(e, wid, msg, handle);
    Scheduler.ValidPoolSameIds(e.pool, r.engine.pool);
  }

  lemma TimerKeepsInv(e: Engine, handle: nat)
    requires Inv(e)
    ensures Inv(CoolingTimerExpires(e, handle).engine)
  {
  }

  /** How many timers a list of requests arms. */
  function Arms(out: seq<Out>): nat {
    if |out| == 0 then 0 else (if out[0].SetTimeout? then 1 else 0) + Arms(out[1..])
  }

  lemma {:induction false} ArmsAppend(a: seq<Out>, b: seq<Out>)
    ensures Arms(a + b) == Arms(a) + Arms(b)
    decreases |a|
  {
    if |a| > 0 {
      assert (a + b)[0] == a[0];
      assert (a + b)[1..] == a[1..] + b;
      ArmsAppend(a[1..], b);
      assert Arms(a + b) == (if a[0].SetTimeout? then 1 else 0) + Arms(a[1..] + b);
    } else {
      assert a + b == b;
    }
  }

  lemma {:induction false} ArmsNone(out: seq<Out>)
    requires Quiet(out)
    ensures Arms(out) == 0
    decreases |out|
  {
    if |out| > 0 {
      ArmsNone(out[1..]);
    }
  }

  lemma ArmsLast(out: seq<Out>)
    requires |out| > 0 && Quiet(out[..|out| - 1]) && out[|out| - 1].SetTimeout?
    ensures Arms(out) == 1
  {
    var n := |out| - 1;
    assert out == out[..n] + [out[n]];
    ArmsNone(out[..n]);
    ArmsAppend(out[..n], [out[n]]);
    assert Arms([out[n]]) == 1 + Arms([]);
  }

  /** A transition arms at most one timer, only while the slot is empty, and
      leaves the slot filled when it does; a filled slot is never emptied. */
  lemma HandleTimerSlot(e: Engine, input: Input)
    requires Inv(e)
    ensures var r := Handle(e, input);
      && Arms(r.out) <= 1
      && (e.coolingTimer.Some? ==> r.engine.coolingTimer.Some? && Arms(r.out) == 0)
      && (Arms(r.out) == 1 ==> r.engine.coolingTimer.Some?)
  {
    var r := Handle(e, input);
    TimerShape(e, input);
    if Quiet(r.out) {
      ArmsNone(r.out);
    } else {
      ArmsLast(r.out);
    }
  }

  /** Every transition's requests arm no timer, or arm one as their last request
      while the slot was empty, filling it; a filled slot stays filled. */
  lemma TimerShape(e: Engine, input: Input)
    requires Inv(e)
    ensures var r := Handle(e, input);
      && (e.coolingTimer.Some? ==> r.engine.coolingTimer.Some?)
      && (|| Quiet(r.out)
          || (&& e.coolingTimer.None? && r.engine.coolingTimer.Some? && |r.out| > 0
              && Quiet(r.out[..|r.out| - 1]) && r.out[|r.out| - 1] == SetTimeout(input.handle, CoolingDelay)))
  {
    if Fits(e, input) && input.MessageIn? {
      assert Handle(e, input) == OnWorkerMessage(e, input.wid, input.msg, input.handle);
    } else if Fits(e, input) {
      QuietCalls(e, input);
    }
  }

  /** Every call other than a worker's message arms no timer and keeps a filled
      slot filled. */
  lemma QuietCalls(e: Engine, input: Input)
    requires Inv(e) && Fits(e, input) && !input.MessageIn?
    ensures e.coolingTimer.Some? ==> Handle(e, input).engine.coolingTimer.Some?
    ensures Quiet(Handle(e, input).out)
  {
    match input
    case StartupIn(args, ids, durations) =>
      assert Handle(e, input) == Startup(e, args, ids, durations);
    case PreHeatIn(ids, durations) =>
      assert Handle(e, input) == PreHeat(e, ids, durations);
    case ShutdownIn =>
      assert Handle(e, input) == ShutdownAsWritten(e);
    case RunJobIn(message, transfer, jobId) =>
      assert Handle(e, input) == RunJob(e, message, transfer, jobId);
    case TimerIn(handle) =>
      assert Handle(e, input) == CoolingTimerExpires(e, handle);
  }

  /** A run of the controller: its final state and every request it made. */
  datatype Run = Run(engine: Engine, out: seq<Out>)

  function RunAll(e: Engine, inputs: seq<Input>): Run
    requires Inv(e)
    decreases |inputs|
  {
    if |inputs| == 0 then Run(e, [])
    else
      var r := Handle(e, inputs[0]);
      HandleKeepsInv(e, inputs[0]);
      var rest := RunAll(r.engine, inputs[1..]);
      Run(rest.engine, r.out + rest.out)
  }

  /** The timer slot is filled once and never emptied, so over a whole run the
      cooling timer is armed at most once, and not at all once it has been armed. */
  lemma {:induction false} ArmedAtMostOnce(e: Engine, inputs: seq<Input>)
    requires Inv(e)
    ensures Arms(RunAll(e, inputs).out) <= if e.coolingTimer.None? then 1 else 0
    decreases |inputs|
  {
    if |inputs| > 0 {
      var r := Handle(e, inputs[0]);
      HandleKeepsInv(e, inputs[0]);
      HandleTimerSlot(e, inputs[0]);
      ArmedAtMostOnce(r.engine, inputs[1..]);
      ArmsAppend(r.out, RunAll(r.engine, inputs[1..]).out);
    }
  }
}

=== FILE: event_emitter.dfy ===
/** The listener registry every worker wrapper inherits: durable listeners
    (`on`) and one-shot listeners (`once`, `waitFor`), keyed by event name.
    Event names are strings and listeners are abstract ids. What a callback does to the registry
    while it runs is given by a `react` function: the registrations it makes,
    in order. */
module EventEmitter {
  import opened Basics

  /** The identity of a callback function. */
  type ListenerId = nat

  /** One call of `on` (oneShot = false) or `once` (oneShot = true). */
  datatype Registration<K> = Registration(oneShot: bool, event: K, listener: ListenerId)

  datatype Registry<K(==,!new)> = Registry(listeners: map<K, seq<ListenerId>>, onceListeners: map<K, seq<ListenerId>>)

  /** The list stored under `event`, or the empty list when there is none. */
  function Listeners<K(==,!new)>(m: map<K, seq<ListenerId>>, event: K): seq<ListenerId> {
    if event in m then m[event] else []
  }

  function Empty<K(==,!new)>(): (r: Registry<K>)
    ensures forall event :: Listeners(r.listeners, event) == [] && Listeners(r.onceListeners, event) == []
  {
    Registry(map[], map[])
  }

  /** Appends `l` to a list of `m`, creating the list when it is absent. */
  function Append<K(==,!new)>(m: map<K, seq<ListenerId>>, event: K, l: ListenerId): (m': map<K, seq<ListenerId>>)
    ensures m'.Keys == m.Keys + {event}
    ensures forall k :: Listeners(m', k) == Listeners(m, k) + (if k == event then [l] else [])
  {
    if event in m then m[event := m[event] + [l]] else m[event := [l]]
  }

  /** `on`: `func` is added to the end of the durable list of `event`; no other
      list changes. */
  function On<K(==,!new)>(r: Registry<K>, event: K, func: ListenerId): (r': Registry<K>)
    ensures forall k :: Listeners(r'.listeners, k) == Listeners(r.listeners, k) + (if k == event then [func] else [])
    ensures r'.onceListeners == r.onceListeners
  {
    r.(listeners := Append(r.listeners, event, func))
  }

  /** `once`: `func` is added to the end of the one-shot list of `event`; no other
      list changes. */
  function Once<K(==,!new)>(r: Registry<K>, event: K, func: ListenerId): (r': Registry<K>)
    ensures forall k :: Listeners(r'.onceListeners, k) == Listeners(r.onceListeners, k) + (if k == event then [func] else [])
    ensures r'.listeners == r.listeners
  {
    r.(onceListeners := Append(r.onceListeners, event, func))
  }

  /** `waitFor`: the promise's resolver becomes exactly one new one-shot listener
      of `event`, behind those already waiting. */
  function WaitFor<K(==,!new)>(r: Registry<K>, event: K, resolver: ListenerId): (r': Registry<K>)
    ensures |Listeners(r'.onceListeners, event)| == |Listeners(r.onceListeners, event)| + 1
    ensures Listeners(r'.onceListeners, event)[..|Listeners(r.onceListeners, event)|] == Listeners(r.onceListeners, event)
    ensures forall k :: k != event ==> Listeners(r'.onceListeners, k) == Listeners(r.onceListeners, k)
    ensures r'.listeners == r.listeners
  {
    Once(r, event, resolver)
  }

  function Apply<K(==,!new)>(r: Registry<K>, reg: Registration<K>): Registry<K> {
    if reg.oneShot then Once(r, reg.event, reg.listener) else On(r, reg.event, reg.listener)
  }

  /** The listeners that `regs` adds to the list of `event` of the given kind, in order. */
  function Added<K(==,!new)>(regs: seq<Registration<K>>, event: K, oneShot: bool): seq<ListenerId> {
    if |regs| == 0 then []
    else
      (if regs[0].oneShot == oneShot && regs[0].event == event then [regs[0].listener] else [])
      + Added(regs[1..], event, oneShot)
  }

  lemma {:induction false} AddedAppend<K(!new)>(a: seq<Registration<K>>, b: seq<Registration<K>>, event: K, oneShot: bool)
    ensures Added(a + b, event, oneShot) == Added(a, event, oneShot) + Added(b, event, oneShot)
  {
    if |a| == 0 {
      assert a + b == b;
    } else {
      assert (a + b)[1..] == a[1..] + b;
      AddedAppend(a[1..], b, event, oneShot);
    }
  }

  lemma AddedAppendAll<K(!new)>(a: seq<Registration<K>>, b: seq<Registration<K>>)
    ensures forall event, oneShot :: Added(a + b, event, oneShot) == Added(a, event, oneShot) + Added(b, event, oneShot)
  {
    forall event, oneShot
      ensures Added(a + b, event, oneShot) == Added(a, event, oneShot) + Added(b, event, oneShot)
    {
      AddedAppend(a, b, event, oneShot);
    }
  }

  /** Performs registrations one after the other. */
  function ApplyAll<K(==,!new)>(r: Registry<K>, regs: seq<Registration<K>>): Registry<K>
    decreases |regs|
  {
    if |regs| == 0 then r
    else ApplyAll(Apply(r, regs[0]), regs[1..])
  }

  /** After a run of registrations every list holds its old contents followed by
      what the registrations added to it, in order. */
  lemma {:induction false} ApplyAllEffect<K(!new)>(r: Registry<K>, regs: seq<Registration<K>>, event: K)
    ensures Listeners(ApplyAll(r, regs).listeners, event) == Listeners(r.listeners, event) + Added(regs, event, false)
    ensures Listeners(ApplyAll(r, regs).onceListeners, event) == Listeners(r.onceListeners, event) + Added(regs, event, true)
    decreases |regs|
  {
    if |regs| > 0 {
      var reg := regs[0];
      var r' := Apply(r, reg);
      assert ApplyAll(r, regs) == ApplyAll(r', regs[1..]);
      ApplyAllEffect(r', regs[1..], event);
      ApplyEffect(r, reg, event);
      AddedHead(regs, event, false);
      AddedHead(regs, event, true);
      Associative(Listeners(r.listeners, event),
                  if !reg.oneShot && reg.event == event then [reg.listener] else [],
                  Added(regs[1..], event, false));
      Associative(Listeners(r.onceListeners, event),
                  if reg.oneShot && reg.event == event then [reg.listener] else [],
                  Added(regs[1..], event, true));
    }
  }

  lemma ApplyEffect<K(!new)>(r: Registry<K>, reg: Registration<K>, event: K)
    ensures Listeners(Apply(r, reg).listeners, event)
      == Listeners(r.listeners, event) + (if !reg.oneShot && reg.event == event then [reg.listener] else [])
    ensures Listeners(Apply(r, reg).onceListeners, event)
      == Listeners(r.onceListeners, event) + (if reg.oneShot && reg.event == event then [reg.listener] else [])
  {
  }

  lemma AddedHead<K(!new)>(regs: seq<Registration<K>>, event: K, oneShot: bool)
    requires |regs| > 0
    ensures Added(regs, event, oneShot)
      == (if regs[0].oneShot == oneShot && regs[0].event == event then [regs[0].listener] else [])
         + Added(regs[1..], event, oneShot)
  {
  }

  /** The registrations made by the callbacks of `ls`, run in order. */
  function Reactions<K(==,!new)>(ls: seq<ListenerId>, react: ListenerId -> seq<Registration<K>>): seq<Registration<K>> {
    if |ls| == 0 then [] else react(ls[0]) + Reactions(ls[1..], react)
  }

  /** A trigger's outcome: the new registry and the listeners invoked, in order. */
  datatype Fired<K(==,!new)> = Fired(registry: Registry<K>, invoked: seq<ListenerId>)

  /** `_triggerEvent`: runs the durable listeners of `event` (those present when it
      starts), then, if the one-shot map has an entry for `event`, reads that list,
      resets it to the empty list and runs the listeners it held. */
  function Trigger<K(==,!new)>(r: Registry<K>, event: K, react: ListenerId -> seq<Registration<K>>): Fired<K> {
    var durable := Listeners(r.listeners, event);
    var r1 := ApplyAll(r, Reactions(durable, react));
    if event in r1.onceListeners then
      var oneShots := r1.onceListeners[event];
      var r2 := r1.(onceListeners := r1.onceListeners[event := []]);
      Fired(ApplyAll(r2, Reactions(oneShots, react)), durable + oneShots)
    else
      Fired(r1, durable)
  }

  /** The one-shot listeners a trigger runs: those registered before it, then
      those its durable callbacks registered for the same event. */
  function OneShotsRun<K(==,!new)>(r: Registry<K>, event: K, react: ListenerId -> seq<Registration<K>>): seq<ListenerId> {
    Listeners(r.onceListeners, event) + Added(Reactions(Listeners(r.listeners, event), react), event, true)
  }

  /** All registrations a trigger's callbacks make, in the order they are made. */
  function TriggerReactions<K(==,!new)>(r: Registry<K>, event: K, react: ListenerId -> seq<Registration<K>>): seq<Registration<K>> {
    Reactions(Listeners(r.listeners, event), react) + Reactions(OneShotsRun(r, event, react), react)
  }

  /** The durable listeners of `event` run first, in registration order; then every
      one-shot listener registered before the trigger, or by a durable callback
      during it, runs once. */
  lemma TriggerInvokes<K(!new)>(r: Registry<K>, event: K, react: ListenerId -> seq<Registration<K>>)
    ensures Trigger(r, event, react).invoked == Listeners(r.listeners, event) + OneShotsRun(r, event, react)
  {
    ApplyAllEffect(r, Reactions(Listeners(r.listeners, event), react), event);
  }

  /** After a trigger the one-shot list of `event` holds only what the one-shot
      callbacks registered for it; those wait for the next trigger. */
  lemma TriggerEmptiesOneShots<K(!new)>(r: Registry<K>, event: K, react: ListenerId -> seq<Registration<K>>)
    ensures Listeners(Trigger(r, event, react).registry.onceListeners, event)
      == Added(Reactions(OneShotsRun(r, event, react), react), event, true)
  {
    var d := Reactions(Listeners(r.listeners, event), react);
    var r1 := ApplyAll(r, d);
    ApplyAllEffect(r, d, event);
    var oneShots := OneShotsRun(r, event, react);
    if event in r1.onceListeners {
      var r2 := r1.(onceListeners := r1.onceListeners[event := []]);
      assert Trigger(r, event, react).registry == ApplyAll(r2, Reactions(oneShots, react));
      ApplyAllEffect(r2, Reactions(oneShots, react), event);
    } else {
      assert Trigger(r, event, react).registry == r1;
      assert oneShots == [];
    }
  }

  /** After a trigger the durable list of any event `k` holds its old contents
      followed by what the callbacks added to it. */
  lemma TriggerKeepsDurableLists<K(!new)>(r: Registry<K>, event: K, react: ListenerId -> seq<Registration<K>>, k: K)
    ensures Listeners(Trigger(r, event, react).registry.listeners, k)
      == Listeners(r.listeners, k) + Added(TriggerReactions(r, event, react), k, false)
  {
    var d := Reactions(Listeners(r.listeners, event), react);
    var r1 := ApplyAll(r, d);
    ApplyAllEffect(r, d, event);
    ApplyAllEffect(r, d, k);
    var o := Reactions(OneShotsRun(r, event, react), react);
    assert TriggerReactions(r, event, react) == d + o;
    AddedAppend(d, o, k, false);
    if event in r1.onceListeners {
      var r2 := r1.(onceListeners := r1.onceListeners[event := []]);
      assert Trigger(r, event, react).registry == ApplyAll(r2, o);
      ApplyAllEffect(r2, o, k);
      assert r2.listeners == r1.listeners;
      Associative(Listeners(r.listeners, k), Added(d, k, false), Added(o, k, false));
    } else {
      assert Trigger(r, event, react).registry == r1;
      assert o == [];
      assert d + o == d;
    }
  }

  lemma ResetKeepsOthers<K(!new)>(m: map<K, seq<ListenerId>>, event: K, k: K)
    requires k != event
    ensures Listeners(m[event := []], k) == Listeners(m, k)
  {
  }

  /** After a trigger the one-shot list of any event other than the triggered one
      holds its old contents followed by what the callbacks added to it. */
  lemma TriggerKeepsOtherOneShots<K(!new)>(r: Registry<K>, event: K, react: ListenerId -> seq<Registration<K>>, k: K)
    requires k != event
    ensures Listeners(Trigger(r, event, react).registry.onceListeners, k)
      == Listeners(r.onceListeners, k) + Added(TriggerReactions(r, event, react), k, true)
  {
    var d := Reactions(Listeners(r.listeners, event), react);
    var r1 := ApplyAll(r, d);
    ApplyAllEffect(r, d, event);
    ApplyAllEffect(r, d, k);
    var o := Reactions(OneShotsRun(r, event, react), react);
    assert TriggerReactions(r, event, react) == d + o;
    AddedAppend(d, o, k, true);
    if event in r1.onceListeners {
      assert r1.onceListeners[event] == OneShotsRun(r, event, react);
      var r2 := r1.(onceListeners := r1.onceListeners[event := []]);
      assert Trigger(r, event, react).registry == ApplyAll(r2, o);
      ApplyAllEffect(r2, o, k);
      ResetKeepsOthers(r1.onceListeners, event, k);
      Associative(Listeners(r.onceListeners, k), Added(d, k, true), Added(o, k, true));
    } else {
      assert o == [];
      assert d + o == d;
    }
  }

  /** A trigger whose callbacks register nothing: every durable listener runs in
      registration order and stays, every one-shot listener registered before the
      trigger runs once, after the durable ones, and is discarded, and no other
      event's lists change. */
  lemma TriggerWithoutReentry<K(!new)>(r: Registry<K>, event: K, react: ListenerId -> seq<Registration<K>>)
    requires forall l :: react(l) == []
    ensures Trigger(r, event, react).invoked == Listeners(r.listeners, event) + Listeners(r.onceListeners, event)
    ensures forall k :: Listeners(Trigger(r, event, react).registry.listeners, k) == Listeners(r.listeners, k)
    ensures Listeners(Trigger(r, event, react).registry.onceListeners, event) == []
    ensures forall k :: k != event ==>
      Listeners(Trigger(r, event, react).registry.onceListeners, k) == Listeners(r.onceListeners, k)
  {
    NoReactions(Listeners(r.listeners, event), react);
    NoReactions(OneShotsRun(r, event, react), react);
    TriggerInvokes(r, event, react);
    TriggerEmptiesOneShots(r, event, react);
    assert TriggerReactions(r, event, react) == [];
    forall k
      ensures Listeners(Trigger(r, event, react).registry.listeners, k) == Listeners(r.listeners, k)
      ensures k != event ==>
        Listeners(Trigger(r, event, react).registry.onceListeners, k) == Listeners(r.onceListeners, k)
    {
      TriggerKeepsDurableLists(r, event, react, k);
      if k != event {
        TriggerKeepsOtherOneShots(r, event, react, k);
      }
    }
  }

  lemma {:induction false} NoReactions<K(!new)>(ls: seq<ListenerId>, react: ListenerId -> seq<Registration<K>>)
    requires forall l :: react(l) == []
    ensures Reactions(ls, react) == []
  {
    if |ls| > 0 {
      NoReactions(ls[1..], react);
    }
  }

  /** A one-shot listener for `event` that a one-shot callback registers while the
      trigger runs is not invoked by that trigger but by the next one. */
  lemma OnceDuringCallbackSurvives<K(!new)>(r: Registry<K>, event: K, first: ListenerId, later: ListenerId)
    requires Listeners(r.listeners, event) == []
    requires Listeners(r.onceListeners, event) == [first]
    ensures
      var react := (l: ListenerId) => if l == first then [Registration(true, event, later)] else [];
      var f := Trigger(r, event, react);
      && f.invoked == [first]
      && Listeners(f.registry.onceListeners, event) == [later]
  {
    var react := (l: ListenerId) => if l == first then [Registration(true, event, later)] else [];
    var reg := Registration(true, event, later);
    assert Reactions([first], react) == [reg];
    assert Added([reg], event, true) == [later];
    TriggerInvokes(r, event, react);
    TriggerEmptiesOneShots(r, event, react);
  }
}

=== FILE: median.dfy ===
/** The statistics helper of the engine: the median of a sample of durations,
    with the engine's own index rule for odd-length samples. */
module Median {
  import opened Basics

  predicate Sorted(s: seq<real>) {
    forall i, j :: 0 <= i < j < |s| ==> s[i] <= s[j]
  }

  /** Inserts `x` into an ascending sequence, keeping it ascending. */
  function Insert(x: real, s: seq<real>): (r: seq<real>)
    requires Sorted(s)
    ensures Sorted(r)
    ensures multiset(r) == multiset(s) + multiset{x}
    ensures |r| == |s| + 1
    ensures forall k :: 0 <= k < |r| ==> r[k] == x || r[k] in s
  {
    if |s| == 0 then [x]
    else if x <= s[0] then [x] + s
    else
      var rest := Insert(x, s[1..]);
      InsertBehindHead(x, s, rest);
      [s[0]] + rest
  }

  /** When `x` goes behind the head, the head stays in front of everything the
      recursive insertion returns. */
  lemma InsertBehindHead(x: real, s: seq<real>, rest: seq<real>)
    requires Sorted(s) && |s| > 0 && s[0] < x
    requires Sorted(rest) && multiset(rest) == multiset(s[1..]) + multiset{x}
    requires forall k :: 0 <= k < |rest| ==> rest[k] == x || rest[k] in s[1..]
    ensures Sorted([s[0]] + rest)
    ensures multiset([s[0]] + rest) == multiset(s) + multiset{x}
    ensures forall k :: 0 <= k < |[s[0]] + rest| ==> ([s[0]] + rest)[k] == x || ([s[0]] + rest)[k] in s
  {
    var r := [s[0]] + rest;
    assert s == [s[0]] + s[1..];
    forall k | 0 <= k < |rest|
      ensures s[0] <= rest[k]
    {
      if rest[k] != x {
        var j :| 0 <= j < |s[1..]| && s[1..][j] == rest[k];
        assert s[1..][j] == s[j + 1];
      }
    }
    forall k | 0 <= k < |r|
      ensures r[k] == x || r[k] in s
    {
      if k > 0 {
        assert r[k] == rest[k - 1];
      }
    }
  }

  /** An ascending copy of the sample; the numeric comparator `(a, b) => a - b`
      orders numbers ascending. The argument itself is a value and is never changed. */
  function Sort(s: seq<real>): (r: seq<real>)
    ensures Sorted(r)
    ensures multiset(r) == multiset(s)
    ensures |r| == |s|
  {
    if |s| == 0 then []
    else
      assert s == [s[0]] + s[1..];
      Insert(s[0], Sort(s[1..]))
  }

  /** Two ascending sequences holding the same multiset of values are equal:
      the sorted copy depends only on the multiset of the samples. */
  lemma {:induction false} SortedUnique(a: seq<real>, b: seq<real>)
    requires Sorted(a) && Sorted(b)
    requires multiset(a) == multiset(b)
    ensures a == b
  {
    if |a| == 0 {
      assert |multiset(b)| == 0;
    } else {
      assert |b| == |multiset(b)| == |multiset(a)| == |a|;
      assert a[0] in multiset(b);
      assert b[0] in multiset(a);
      assert a[0] == b[0] by {
        var i :| 0 <= i < |b| && b[i] == a[0];
        var j :| 0 <= j < |a| && a[j] == b[0];
        assert b[0] <= b[i];
        assert a[0] <= a[j];
      }
      assert a == [a[0]] + a[1..];
      assert b == [b[0]] + b[1..];
      assert multiset(a[1..]) == multiset(a) - multiset{a[0]};
      assert multiset(b[1..]) == multiset(b) - multiset{b[0]};
      SortedUnique(a[1..], b[1..]);
    }
  }

  /** The index rule applied to an ascending, non-empty copy of the sample:
      for an odd length n the element at ceil(n/2) = (n+1)/2, which is past the
      end when n = 1 (JavaScript's `undefined`); for an even length the mean of
      the elements at n/2 - 1 and n/2. */
  function PickMiddle(nums: seq<real>): (r: Option<real>)
    requires |nums| > 0
    requires Sorted(nums)
    ensures r.None? <==> |nums| == 1
    ensures |nums| % 2 == 0 ==> nums[|nums| / 2 - 1] <= r.value <= nums[|nums| / 2]
    ensures |nums| % 2 == 1 && |nums| >= 3 ==> r.value in nums && nums[|nums| / 2] <= r.value
  {
    var mid := (|nums| + 1) / 2;
    if |nums| % 2 != 0 then
      if mid < |nums| then Some(nums[mid]) else None
    else
      Some((nums[mid - 1] + nums[mid]) / 2.0)
  }

  /** `calculateMedian`: 0 for the empty sample, otherwise the index rule of
      PickMiddle applied to a sorted copy of the sample. */
  function CalculateMedian(arr: seq<real>): (r: Option<real>)
    ensures |arr| == 0 ==> r == Some(0.0)
    ensures r.None? <==> |arr| == 1
    ensures |arr| % 2 == 0 && |arr| > 0 ==>
      exists lo, hi :: lo in arr && hi in arr && lo <= r.value <= hi
    ensures |arr| % 2 == 1 && |arr| >= 3 ==> r.value in arr
    ensures |arr| % 2 == 1 && |arr| >= 3 ==> Sort(arr)[|arr| / 2] <= r.value
  {
    if |arr| == 0 then Some(0.0)
    else
      var nums := Sort(arr);
      var r := PickMiddle(nums);
      if |arr| % 2 == 0 then
        var lo, hi := nums[|arr| / 2 - 1], nums[|arr| / 2];
        assert lo in multiset(arr) && hi in multiset(arr);
        assert lo in arr && hi in arr && lo <= r.value <= hi;
        r
      else
        assert r.Some? ==> r.value in multiset(arr);
        r
  }

  /** The median depends only on the multiset of the samples, not on their order. */
  lemma MedianIgnoresOrder(a: seq<real>, b: seq<real>)
    requires multiset(a) == multiset(b)
    ensures CalculateMedian(a) == CalculateMedian(b)
  {
    SortedUnique(Sort(a), Sort(b));
    assert |a| == |multiset(a)| == |multiset(b)| == |b|;
  }

  /** The index rule on a sorted sample of length n >= 2: for an odd n the element
      at ceil(n/2) = n/2 + 1, one past the middle, and for an even n the mean of the
      two middle elements. */
  lemma PickMiddleRule(nums: seq<real>)
    requires |nums| >= 2 && Sorted(nums)
    ensures var h := |nums| / 2;
      && 1 <= h < |nums|
      && (|nums| % 2 == 1 ==> h + 1 < |nums| && PickMiddle(nums) == Some(nums[h + 1]))
      && (|nums| % 2 == 0 ==> PickMiddle(nums) == Some((nums[h - 1] + nums[h]) / 2.0))
  {
    var n := |nums|;
    if n % 2 == 0 {
      assert (n + 1) / 2 == n / 2;
    } else {
      assert (n + 1) / 2 == n / 2 + 1;
    }
  }
}

=== FILE: protocol.dfy ===
/** The messages exchanged between a worker wrapper on the page and the script
    running inside the web worker. Payloads and transferable buffers are opaque:
    the pool only passes them along. */
module Protocol {
  import opened Basics

  type JobId = string

  /** A handle on a transferable buffer (an ArrayBuffer moved, not copied). */
  type Buffer = nat

  /** Structured-clone data, or `undefined`. */
  datatype Payload = Undefined | Data(repr: string)

  /** A job as the scheduler builds it: `{type: 'job', id, message, transfer}`. */
  datatype Job = Job(id: JobId, message: Payload, transfer: Option<seq<Buffer>>)

  /** The `data` of a posted message, one constructor per shape that occurs. */
  datatype Message =
    | InitCall(message: Payload, transfer: Option<seq<Buffer>>)  // {type: 'init', ...}
    | StartupCall                                                // {type: 'startup'}
    | JobCall(job: Job)                                          // {type: 'job', ...}
    | JobAcceptCall(id: JobId)                                   // {type: 'jobok', id}
    | JobReturnCall(id: JobId, error: bool, message: Payload)    // {type: 'jobdone', ...}
    | ReadyCall                                                  // {type: 'ready'}
    | ReadyText                                                  // the bare string 'ready'
    | Unrecognised(kind: string)                                 // any other `type`

  /** One `postMessage(data, transfer)` call. */
  datatype Post = Post(data: Message, transfer: seq<Buffer>)
}

=== FILE: scheduler.dfy ===
/** The load balancer and pool registry (`Scheduler`): an insertion-ordered map
    from worker id to worker wrapper, the least-busy scan over it, and the calls
    that grow, shrink and feed the pool. Worker ids come from a fresh-id oracle
    (`nanoid`), given as arguments. */
module Scheduler {
  import opened Basics
  import opened Protocol
  import WorkerWrapper

  type WorkerId = string

  datatype Entry = Entry(id: WorkerId, worker: WorkerWrapper.Worker)

  /** The pool in insertion order; ids are keys, so they are distinct, and the
      id generator never produces the empty string. */
  type Pool = seq<Entry>

  ghost predicate ValidPool(pool: Pool) {
    && (forall i, j :: 0 <= i < j < |pool| ==> pool[i].id != pool[j].id)
    && (forall i :: 0 <= i < |pool| ==> pool[i].id != "")
  }

  function Ids(pool: Pool): (ids: seq<WorkerId>)
    ensures |ids| == |pool|
    ensures forall i :: 0 <= i < |pool| ==> ids[i] == pool[i].id
  {
    seq(|pool|, i requires 0 <= i < |pool| => pool[i].id)
  }

  lemma IdsAppend(pool: Pool, e: Entry)
    ensures Ids(pool + [e]) == Ids(pool) + [e.id]
  {
    var a, b := Ids(pool + [e]), Ids(pool) + [e.id];
    assert |a| == |b|;
    forall i | 0 <= i < |a|
      ensures a[i] == b[i]
    {
      assert (pool + [e])[i] == if i < |pool| then pool[i] else e;
    }
  }

  /** `Map.prototype.get`. */
  function Get(pool: Pool, id: WorkerId): (r: Option<WorkerWrapper.Worker>)
    ensures r.None? <==> id !in Ids(pool)
    ensures r.Some? ==> exists i :: 0 <= i < |pool| && pool[i].id == id && pool[i].worker == r.value
  {
    if |pool| == 0 then None
    else if pool[0].id == id then Some(pool[0].worker)
    else Get(pool[1..], id)
  }

  lemma {:induction false} GetAt(pool: Pool, k: int)
    requires ValidPool(pool) && 0 <= k < |pool|
    ensures Get(pool, pool[k].id) == Some(pool[k].worker)
  {
    if k > 0 {
      var rest := pool[1..];
      assert rest[k - 1] == pool[k];
      assert ValidPool(rest) by {
        forall i, j | 0 <= i < j < |rest|
          ensures rest[i].id != rest[j].id
        {
          assert rest[i] == pool[i + 1] && rest[j] == pool[j + 1];
        }
      }
      assert pool[0].id != pool[k].id;
      GetAt(rest, k - 1);
    }
  }

  function Load(e: Entry): nat {
    |e.worker.jobs|
  }

  ghost predicate NoActive(pool: Pool) {
    forall j :: 0 <= j < |pool| ==> !pool[j].worker.active
  }

  /** Entry k is the least-busy worker: it is active, no active worker has a
      shorter queue, and every active worker before it has a longer one. */
  ghost predicate IsLeastBusy(pool: Pool, k: int) {
    && 0 <= k < |pool|
    && pool[k].worker.active
    && (forall j :: 0 <= j < |pool| && pool[j].worker.active ==> Load(pool[k]) <= Load(pool[j]))
    && (forall j :: 0 <= j < k && pool[j].worker.active ==> Load(pool[j]) > Load(pool[k]))
  }

  /** At most one entry is the least-busy one. */
  lemma LeastBusyUnique(pool: Pool, k: int, k': int)
    requires IsLeastBusy(pool, k) && IsLeastBusy(pool, k')
    ensures k == k'
  {
  }

  /** The scan's `lowest` pair: a queue length (-1 before any active worker is
      seen) and the id it belongs to. */
  datatype Lowest = Lowest(count: int, id: WorkerId)

  const Sentinel := Lowest(-1, "")

  /** The loop of `_getLeastBusyWorker` from entry i on. An entry is looked at when
      nothing is recorded yet or its queue is strictly shorter; an inactive one is
      then skipped, an active one recorded, and a recorded empty queue ends the loop. */
  function Scan(pool: Pool, i: nat, lowest: Lowest): Lowest
    requires i <= |pool|
    decreases |pool| - i
  {
    if i == |pool| then lowest
    else
      var e := pool[i];
      if lowest.count == -1 || Load(e) < lowest.count then
        if !e.worker.active then Scan(pool, i + 1, lowest)
        else
          var l := Lowest(Load(e), e.id);
          if l.count == 0 then l else Scan(pool, i + 1, l)
      else
        Scan(pool, i + 1, lowest)
  }

  /** What the scan knows after looking at entries 0..i-1: nothing was active, or
      entry k (with a non-empty queue) is the least busy among them. */
  ghost predicate ScanSoFar(pool: Pool, i: nat, lowest: Lowest, k: int)
    requires i <= |pool|
  {
    || (lowest == Sentinel && forall j :: 0 <= j < i ==> !pool[j].worker.active)
    || (&& 0 <= k < i
        && pool[k].worker.active
        && lowest == Lowest(Load(pool[k]), pool[k].id)
        && Load(pool[k]) > 0
        && (forall j :: 0 <= j < i && pool[j].worker.active ==> Load(pool[k]) <= Load(pool[j]))
        && (forall j :: 0 <= j < k && pool[j].worker.active ==> Load(pool[j]) > Load(pool[k])))
  }

  /** What `_getLeastBusyWorker` promises of the pair it ends with. */
  ghost predicate ScanResult(pool: Pool, l: Lowest) {
    && (NoActive(pool) ==> l == Sentinel)
    && (!NoActive(pool) ==> exists k :: IsLeastBusy(pool, k) && l == Lowest(Load(pool[k]), pool[k].id))
  }

  lemma ScanSkip(pool: Pool, i: nat, lowest: Lowest, k: int)
    requires i < |pool| && ScanSoFar(pool, i, lowest, k)
    requires !pool[i].worker.active || !(lowest.count == -1 || Load(pool[i]) < lowest.count)
    ensures ScanSoFar(pool, i + 1, lowest, k)
  {
  }

  lemma ScanRecord(pool: Pool, i: nat, lowest: Lowest, k: int)
    requires i < |pool| && ScanSoFar(pool, i, lowest, k)
    requires pool[i].worker.active && Load(pool[i]) > 0
    requires lowest.count == -1 || Load(pool[i]) < lowest.count
    ensures ScanSoFar(pool, i + 1, Lowest(Load(pool[i]), pool[i].id), i)
  {
  }

  lemma ScanZero(pool: Pool, i: nat, lowest: Lowest, k: int)
    requires i < |pool| && ScanSoFar(pool, i, lowest, k)
    requires pool[i].worker.active && Load(pool[i]) == 0
    requires lowest.count == -1 || Load(pool[i]) < lowest.count
    ensures ScanResult(pool, Scan(pool, i, lowest))
  {
    assert Scan(pool, i, lowest) == Lowest(0, pool[i].id);
    assert IsLeastBusy(pool, i);
  }

  lemma ScanEnd(pool: Pool, lowest: Lowest, k: int)
    requires ScanSoFar(pool, |pool|, lowest, k)
    ensures ScanResult(pool, lowest)
  {
    if lowest != Sentinel {
      assert IsLeastBusy(pool, k);
    }
  }

  lemma {:induction false} ScanFinds(pool: Pool, i: nat, lowest: Lowest, k: int)
    requires i <= |pool|
    requires ScanSoFar(pool, i, lowest, k)
    ensures ScanResult(pool, Scan(pool, i, lowest))
    decreases |pool| - i, 1
  {
    if i == |pool| {
      ScanEnd(pool, lowest, k);
    } else if (lowest.count == -1 || Load(pool[i]) < lowest.count) && pool[i].worker.active {
      if Load(pool[i]) == 0 {
        ScanZero(pool, i, lowest, k);
      } else {
        ScanFindsRecorded(pool, i, lowest, k);
      }
    } else {
      ScanFindsSkipped(pool, i, lowest, k);
    }
  }

  lemma {:induction false} ScanFindsRecorded(pool: Pool, i: nat, lowest: Lowest, k: int)
    requires i < |pool| && ScanSoFar(pool, i, lowest, k)
    requires (lowest.count == -1 || Load(pool[i]) < lowest.count) && pool[i].worker.active
    requires Load(pool[i]) > 0
    ensures ScanResult(pool, Scan(pool, i, lowest))
    decreases |pool| - i, 0
  {
    var l := Lowest(Load(pool[i]), pool[i].id);
    ScanRecord(pool, i, lowest, k);
    ScanFinds(pool, i + 1, l, i);
    assert Scan(pool, i, lowest) == Scan(pool, i + 1, l);
  }

  lemma {:induction false} ScanFindsSkipped(pool: Pool, i: nat, lowest: Lowest, k: int)
    requires i < |pool| && ScanSoFar(pool, i, lowest, k)
    requires !((lowest.count == -1 || Load(pool[i]) < lowest.count) && pool[i].worker.active)
    ensures ScanResult(pool, Scan(pool, i, lowest))
    decreases |pool| - i, 0
  {
    ScanSkip(pool, i, lowest, k);
    ScanFinds(pool, i + 1, lowest, k);
    assert Scan(pool, i, lowest) == Scan(pool, i + 1, lowest);
  }

  /** `_getLeastBusyWorker`'s result: the worker (undefined for the sentinel), its
      id and its queue length. */
  datatype Selection = Selection(worker: Option<WorkerWrapper.Worker>, id: WorkerId, count: int)

  /** `_getLeastBusyWorker`: never an inactive worker; the shortest queue among the
      active ones, the earliest in insertion order on a tie; and with no active
      worker the sentinel: no worker, id '' and count -1. */
  function GetLeastBusyWorker(pool: Pool): (r: Selection)
    requires ValidPool(pool)
    ensures NoActive(pool) <==> r.count == -1
    ensures NoActive(pool) ==> r.worker.None? && r.id == ""
    ensures !NoActive(pool) ==>
      exists k :: IsLeastBusy(pool, k) && r == Selection(Some(pool[k].worker), pool[k].id, Load(pool[k]))
  {
    var lowest := Scan(pool, 0, Sentinel);
    ScanSelects(pool);
    Selection(Get(pool, lowest.id), lowest.id, lowest.count)
  }

  lemma ScanSelects(pool: Pool)
    requires ValidPool(pool)
    ensures var l := Scan(pool, 0, Sentinel);
      && (NoActive(pool) ==> l == Sentinel && Get(pool, l.id).None?)
      && (!NoActive(pool) ==>
            exists k :: IsLeastBusy(pool, k) && l == Lowest(Load(pool[k]), pool[k].id)
                        && Get(pool, l.id) == Some(pool[k].worker))
  {
    ScanFinds(pool, 0, Sentinel, -1);
    var l := Scan(pool, 0, Sentinel);
    if NoActive(pool) {
      assert "" !in Ids(pool);
    } else {
      var k :| IsLeastBusy(pool, k) && l == Lowest(Load(pool[k]), pool[k].id);
      GetAt(pool, k);
    }
  }

  /** The scan stops at the first active worker with an empty queue: entries after
      it are never looked at, so they cannot change the choice. */
  lemma {:induction false} ScanStopsAtIdle(p: Pool, q: Pool, i: nat, lowest: Lowest)
    requires i <= |p|
    requires lowest.count == -1 || lowest.count > 0
    requires exists j :: i <= j < |p| && p[j].worker.active && Load(p[j]) == 0
    ensures Scan(p + q, i, lowest) == Scan(p, i, lowest)
    decreases |p| - i
  {
    assert (p + q)[i] == p[i];
    var e := p[i];
    if lowest.count == -1 || Load(e) < lowest.count {
      if !e.worker.active {
        ScanStopsAtIdle(p, q, i + 1, lowest);
      } else if Load(e) > 0 {
        ScanStopsAtIdle(p, q, i + 1, Lowest(Load(e), e.id));
      }
    } else {
      assert !(e.worker.active && Load(e) == 0);
      ScanStopsAtIdle(p, q, i + 1, lowest);
    }
  }

  /** Choosing from a pool that is a prefix of a larger one: once the prefix holds
      an active worker with an empty queue, the entries added after it do not change
      which worker is chosen. */
  lemma IdleWorkerShortCircuits(p: Pool, q: Pool)
    requires ValidPool(p + q)
    requires exists j :: 0 <= j < |p| && p[j].worker.active && Load(p[j]) == 0
    ensures GetLeastBusyWorker(p + q).id == Scan(p, 0, Sentinel).id
    ensures GetLeastBusyWorker(p + q).count == 0
  {
    ScanStopsAtIdle(p, q, 0, Sentinel);
    var j :| 0 <= j < |p| && p[j].worker.active && Load(p[j]) == 0;
    assert (p + q)[j] == p[j];
    var r := GetLeastBusyWorker(p + q);
    var k :| IsLeastBusy(p + q, k) && r == Selection(Some((p + q)[k].worker), (p + q)[k].id, Load((p + q)[k]));
    assert Load((p + q)[k]) <= Load((p + q)[j]);
  }

  /** `Map.prototype.set` on a key already present: the entry keeps its place and
      only its worker changes. */
  function SetWorker(pool: Pool, id: WorkerId, w: WorkerWrapper.Worker): (p: Pool)
    ensures |p| == |pool|
    ensures forall i :: 0 <= i < |pool| ==> p[i].id == pool[i].id
    ensures forall i :: 0 <= i < |pool| && pool[i].id != id ==> p[i] == pool[i]
    ensures forall i :: 0 <= i < |pool| && pool[i].id == id ==> p[i].worker == w
  {
    if |pool| == 0 then []
    else [if pool[0].id == id then Entry(id, w) else pool[0]] + SetWorker(pool[1..], id, w)
  }

  /** `Map.prototype.delete`: the entries with another key, in their order. */
  function Delete(pool: Pool, id: WorkerId): (p: Pool)
    ensures forall e :: e in p <==> e in pool && e.id != id
    ensures |p| <= |pool|
  {
    if |pool| == 0 then []
    else if pool[0].id == id then Delete(pool[1..], id)
    else [pool[0]] + Delete(pool[1..], id)
  }

  lemma {:induction false} DeleteAt(pool: Pool, k: int)
    requires ValidPool(pool) && 0 <= k < |pool|
    ensures Delete(pool, pool[k].id) == pool[..k] + pool[k + 1..]
  {
    var id := pool[k].id;
    var tail := pool[1..];
    if k == 0 {
      forall i | 0 <= i < |tail|
        ensures tail[i].id != id
      {
        assert tail[i] == pool[i + 1];
      }
      DeleteAbsent(tail, id);
    } else {
      assert tail[k - 1] == pool[k];
      assert pool[0].id != id;
      ValidPoolTail(pool);
      DeleteAt(tail, k - 1);
      assert Delete(pool, id) == [pool[0]] + Delete(tail, id);
      ConsSplit(pool, k);
    }
  }

  lemma ValidPoolTail(pool: Pool)
    requires ValidPool(pool) && |pool| > 0
    ensures ValidPool(pool[1..])
  {
    assert forall i :: 0 <= i < |pool[1..]| ==> pool[1..][i] == pool[i + 1];
  }

  /** The head put back in front of the tail without its position k - 1 is the
      whole sequence without its position k. */
  lemma ConsSplit<T>(s: seq<T>, k: int)
    requires 0 < k < |s|
    ensures [s[0]] + (s[1..][..k - 1] + s[1..][k..]) == s[..k] + s[k + 1..]
  {
    assert s[1..][..k - 1] == s[1..k] && s[1..][k..] == s[k + 1..];
    assert [s[0]] + s[1..k] == s[..k];
  }

  lemma {:induction false} DeleteAbsent(pool: Pool, id: WorkerId)
    requires forall i :: 0 <= i < |pool| ==> pool[i].id != id
    ensures Delete(pool, id) == pool
  {
    if |pool| > 0 {
      DeleteAbsent(pool[1..], id);
    }
  }

  lemma ValidPoolRemove(pool: Pool, k: int)
    requires ValidPool(pool) && 0 <= k < |pool|
    ensures ValidPool(pool[..k] + pool[k + 1..])
  {
    var p := pool[..k] + pool[k + 1..];
    forall i, j | 0 <= i < j < |p|
      ensures p[i].id != p[j].id
    {
      var i' := if i < k then i else i + 1;
      var j' := if j < k then j else j + 1;
      assert p[i] == pool[i'] && p[j] == pool[j'];
    }
    forall i | 0 <= i < |p|
      ensures p[i].id != ""
    {
      assert p[i] == pool[if i < k then i else i + 1];
    }
  }

  /** `extendPool`'s result: the new pool, the worker's id, what the wrapper posted
      and the events it fired while starting. */
  datatype Extended = Extended(pool: Pool, id: WorkerId, effects: seq<WorkerWrapper.Effect>, fired: seq<WorkerWrapper.Event>)

  /** `extendPool`: starts the wrapper, waits for its `ready` message, and only then
      files it under a fresh id, after every worker already in the pool. The id
      generator is a parameter; it yields a non-empty id not yet in use. The
      `{type:'ready'}` reply is supplied here: the worker script as written never
      posts it (WorkerSide.InitHandshakeMismatch), so in the source the wait never
      ends and this step describes the run that a completed handshake would make. */
  function ExtendPool(pool: Pool, worker: WorkerWrapper.Worker, id: WorkerId): (r: Extended)
    requires id != "" && id !in Ids(pool)
    ensures r.id == id
    ensures |r.pool| == |pool| + 1 && r.pool == pool + [Entry(id, r.pool[|pool|].worker)]
    ensures r.pool[..|pool|] == pool
    ensures r.pool[|pool|].worker.active && r.pool[|pool|].worker.jobs == worker.jobs
    ensures !worker.awaitingIdle ==> r.effects == [WorkerWrapper.Send(Post(WorkerWrapper.InitMessage(worker), []))]
    ensures r.fired == [WorkerWrapper.Ready, WorkerWrapper.Idle]
    ensures ValidPool(pool) ==> ValidPool(r.pool)
  {
    var s1 := WorkerWrapper.Start(worker);
    var s2 := WorkerWrapper.Receive(s1.worker, ReadyCall);
    var p := pool + [Entry(id, s2.value.worker)];
    assert p[..|pool|] == pool;
    Extended(p, id, s1.effects + s2.value.effects, s1.fired + s2.value.fired)
  }

  /** `reducePool`'s result: the new pool, and the entry taken out with its wrapper
      after `shutdown`, with what that shutdown posted. */
  datatype Reduced = Reduced(pool: Pool, retired: Option<Entry>, effects: seq<WorkerWrapper.Effect>)

  /** `reducePool`: with no active worker nothing changes; otherwise the least-busy
      worker is shut down and removed, and the other entries keep their order. The
      wait for that worker to drain is not part of this step. */
  function ReducePool(pool: Pool): (r: Reduced)
    requires ValidPool(pool)
    ensures NoActive(pool) ==> r == Reduced(pool, None, [])
    ensures !NoActive(pool) ==>
      exists k :: && IsLeastBusy(pool, k)
                  && r.pool == pool[..k] + pool[k + 1..]
                  && r.retired == Some(Entry(pool[k].id, WorkerWrapper.Shutdown(pool[k].worker).worker))
                  && r.effects == WorkerWrapper.Shutdown(pool[k].worker).effects
    ensures |r.pool| == if NoActive(pool) then |pool| else |pool| - 1
    ensures ValidPool(r.pool)
  {
    var sel := GetLeastBusyWorker(pool);
    if sel.worker.None? then
      Reduced(pool, None, [])
    else
      var s := WorkerWrapper.Shutdown(sel.worker.value);
      ReducedFacts(pool, sel);
      Reduced(Delete(pool, sel.id), Some(Entry(sel.id, s.worker)), s.effects)
  }

  /** The entry `getLeastBusyWorker` chose, shut down and deleted, is the least-busy
      position of the pool, and the rest of the pool stays valid. */
  lemma ReducedFacts(pool: Pool, sel: Selection)
    requires ValidPool(pool) && sel == GetLeastBusyWorker(pool) && sel.worker.Some?
    ensures
      var s := WorkerWrapper.Shutdown(sel.worker.value);
      var r := Reduced(Delete(pool, sel.id), Some(Entry(sel.id, s.worker)), s.effects);
      && !NoActive(pool)
      && (exists k :: && IsLeastBusy(pool, k)
                      && r.pool == pool[..k] + pool[k + 1..]
                      && r.retired == Some(Entry(pool[k].id, WorkerWrapper.Shutdown(pool[k].worker).worker))
                      && r.effects == WorkerWrapper.Shutdown(pool[k].worker).effects)
      && |r.pool| == |pool| - 1
      && ValidPool(r.pool)
  {
    var k :| IsLeastBusy(pool, k) && sel == Selection(Some(pool[k].worker), pool[k].id, Load(pool[k]));
    DeleteAt(pool, k);
    ValidPoolRemove(pool, k);
  }

  /** Why `submitJob` can fail: no active worker (the source then calls a method of
      `undefined`), or the chosen wrapper refusing the job. */
  datatype SchedulerError = NoWorker | Refused(error: WorkerWrapper.WorkerError)

  /** `submitJob`'s result: the new pool, the job's id, the chosen worker's id and
      what its wrapper posted. */
  datatype Submission = Submission(pool: Pool, jobId: JobId, workerId: WorkerId, effects: seq<WorkerWrapper.Effect>)

  /** `submitJob`: wraps the message in a job under a fresh id and queues it on the
      least-busy active worker; every other entry is left as it was. The chosen
      worker's id is reported for the controller's use only: the source's return
      statement names an undeclared `wid` and throws a ReferenceError instead of
      returning, which the controller's `runJob` models. */
  function SubmitJob(pool: Pool, message: Payload, transfer: Option<seq<Buffer>>, jobId: JobId): (r: Result<Submission, SchedulerError>)
    requires ValidPool(pool)
    ensures r.Failure? <==> NoActive(pool)
    ensures r.Failure? ==> r.error == NoWorker
    ensures r.Success? ==>
      && r.value.jobId == jobId
      && |r.value.pool| == |pool|
      && Ids(r.value.pool) == Ids(pool)
      && exists k :: && IsLeastBusy(pool, k)
                     && r.value.workerId == pool[k].id
                     && r.value.pool[k].worker.jobs == pool[k].worker.jobs + [Job(jobId, message, transfer)]
                     && r.value.pool[k].worker.active
                     && (forall j :: 0 <= j < |pool| && j != k ==> r.value.pool[j] == pool[j])
    ensures r.Success? ==> ValidPool(r.value.pool)
  {
    var job := Job(jobId, message, transfer);
    var sel := GetLeastBusyWorker(pool);
    if sel.worker.None? then Failure(NoWorker)
    else
      match WorkerWrapper.SubmitJob(sel.worker.value, job)
      case Failure(e) => Failure(Refused(e))
      case Success(s) =>
        SubmitLands(pool, sel, s.worker);
        Success(Submission(SetWorker(pool, sel.id, s.worker), jobId, sel.id, s.effects))
  }

  /** Validity depends only on the ids. */
  lemma ValidPoolSameIds(p: Pool, q: Pool)
    requires ValidPool(p) && Ids(p) == Ids(q)
    ensures ValidPool(q)
  {
    assert forall i :: 0 <= i < |q| ==> q[i].id == Ids(p)[i] == p[i].id;
  }

  /** Replacing the selected worker touches only its entry. */
  lemma SubmitLands(pool: Pool, sel: Selection, w: WorkerWrapper.Worker)
    requires ValidPool(pool) && sel == GetLeastBusyWorker(pool) && sel.worker.Some?
    ensures var p := SetWorker(pool, sel.id, w);
      && |p| == |pool| && Ids(p) == Ids(pool) && ValidPool(p)
      && exists k :: && IsLeastBusy(pool, k)
                     && sel.id == pool[k].id && sel.worker.value == pool[k].worker
                     && p[k].worker == w
                     && (forall j :: 0 <= j < |pool| && j != k ==> p[j] == pool[j])
  {
    var k :| IsLeastBusy(pool, k) && sel == Selection(Some(pool[k].worker), pool[k].id, Load(pool[k]));
    SetAt(pool, k, w);
  }

  lemma SetAt(pool: Pool, k: int, w: WorkerWrapper.Worker)
    requires ValidPool(pool) && 0 <= k < |pool|
    ensures var p := SetWorker(pool, pool[k].id, w);
      && |p| == |pool| && Ids(p) == Ids(pool) && ValidPool(p)
      && p[k].worker == w
      && (forall j :: 0 <= j < |pool| && j != k ==> p[j] == pool[j])
  {
    var p := SetWorker(pool, pool[k].id, w);
    assert Ids(p) == Ids(pool);
    ValidPoolSameIds(pool, p);
    forall j | 0 <= j < |pool| && j != k
      ensures p[j] == pool[j]
    {
      assert pool[j].id != pool[k].id;
    }
  }
}

=== FILE: worker_side.dfy ===
/** The script that runs inside each web worker: it answers `startup` by running
    the init function and `job` by running the work function, reporting each job
    with a `jobok` message before the work and a `jobdone` message after it. The
    init and work functions are abstract: only their outcome is an input. */
module WorkerSide {
  import opened Basics
  import opened Protocol
  import WorkerWrapper

  /** How the work function ended: it returned `[message, transfer?]`; it threw a
      value whose `message` property is given (`undefined` when it has none); or it
      threw `null` or `undefined`, so that reading `err.message` in the `catch`
      throws again. */
  datatype WorkOutcome =
    | Returned(message: Payload, transfer: Option<seq<Buffer>>)
    | Threw(errorMessage: Payload)
    | ThrewNullish

  /** How the init function ended: its promise resolved; its promise was rejected;
      or it returned something with no `then` method (any synchronous function,
      such as the default `function(){}`, which returns `undefined`) or threw
      before returning, so that `init().then` throws inside the listener. */
  datatype InitOutcome = InitResolved | InitRejected | InitReturnedPlain

  /** What the worker script does, in order. */
  datatype Action = Send(post: Post) | RunWork(input: Payload) | RunInit

  datatype WorkerSideError = UnknownMessage | InitNotThenable

  /** `processJob`: acknowledges the job, runs the work function on its message and
      reports the outcome under the same id; an error is caught and reported with
      its message and no buffers. When `null` or `undefined` was thrown, the `catch`
      itself throws, the async function's promise is rejected, and no completion is
      ever posted. */
  function ProcessJob(job: Job, outcome: WorkOutcome): (trace: seq<Action>)
    ensures |trace| == (if outcome.ThrewNullish? then 2 else 3)
    ensures trace[0] == Send(Post(JobAcceptCall(job.id), []))
    ensures trace[1] == RunWork(job.message)
    ensures !outcome.ThrewNullish? ==> trace[2].Send? && trace[2].post.data.JobReturnCall?
    ensures !outcome.ThrewNullish? ==> trace[2].post.data.id == job.id
    ensures !outcome.ThrewNullish? ==> (trace[2].post.data.error <==> outcome.Threw?)
    ensures outcome.Threw? ==>
      trace[2].post.data.message == outcome.errorMessage && trace[2].post.transfer == []
    ensures outcome.Returned? ==>
      trace[2].post.data.message == outcome.message && trace[2].post.transfer == outcome.transfer.GetOr([])
  {
    var accept := Send(Post(JobAcceptCall(job.id), []));
    match outcome
    case Returned(message, transfer) =>
      [accept, RunWork(job.message), Send(Post(JobReturnCall(job.id, false, message), transfer.GetOr([])))]
    case Threw(errorMessage) =>
      [accept, RunWork(job.message), Send(Post(JobReturnCall(job.id, true, errorMessage), []))]
    case ThrewNullish =>
      [accept, RunWork(job.message)]
  }

  /** The `message` listener: `startup` runs the init function (with no argument)
      and posts the bare string 'ready' once its promise resolves, and throws when it
      returned no promise; `job` runs ProcessJob; any other message throws. */
  function Dispatch(msg: Message, init: InitOutcome, work: WorkOutcome): (r: Result<seq<Action>, WorkerSideError>)
    ensures r.Success? <==> (msg.StartupCall? && !init.InitReturnedPlain?) || msg.JobCall?
    ensures r.Failure? ==> r.error == (if msg.StartupCall? then InitNotThenable else UnknownMessage)
    ensures msg.StartupCall? && r.Success? ==> |r.value| > 0 && r.value[0] == RunInit
    ensures msg.StartupCall? ==> (r.Success? && Send(Post(ReadyText, [])) in r.value <==> init == InitResolved)
    ensures msg.JobCall? ==> r.value == ProcessJob(msg.job, work)
  {
    match msg
    case StartupCall =>
      (match init
       case InitResolved => Success([RunInit, Send(Post(ReadyText, []))])
       case InitRejected => Success([RunInit])
       case InitReturnedPlain => Failure(InitNotThenable))
    case JobCall(job) => Success(ProcessJob(job, work))
    case _ => Failure(UnknownMessage)
  }

  /** The two sides meet on jobs: the completion the script posts for the job a
      wrapper has in flight retires exactly that job, the head of the queue. */
  lemma CompletionRetiresHead(w: WorkerWrapper.Worker, outcome: WorkOutcome)
    requires WorkerWrapper.QueueInv(w) && w.workingJob.Some?
    ensures !outcome.ThrewNullish? ==>
      var done := ProcessJob(w.jobs[0], outcome)[2].post.data;
      && WorkerWrapper.Receive(w, done).Success?
      && WorkerWrapper.Receive(w, done).value.worker.jobs == w.jobs[1..]
  {
    assert WorkerWrapper.IndexOf(WorkerWrapper.Ids(w.jobs), w.jobs[0].id) == 0;
  }

  /** As written the two sides do not agree on the init handshake: the wrapper
      posts `{type: 'init'}`, which the script rejects, and the script answers
      `startup` with the bare string 'ready', which the wrapper rejects. */
  lemma InitHandshakeMismatch(message: Payload, transfer: Option<seq<Buffer>>, init: InitOutcome, work: WorkOutcome,
                              w: WorkerWrapper.Worker)
    ensures Dispatch(InitCall(message, transfer), init, work).Failure?
    ensures WorkerWrapper.Receive(w, ReadyText).Failure?
  {
  }

  /** A job whose work function throws `null` or `undefined` is acknowledged but
      never completed: the only message the script posts for it is the `jobok`,
      which leaves the wrapper exactly as it was, so the in-flight slot is never
      cleared and the queue behind it stalls. */
  lemma NullishRejectionStalls(job: Job, w: WorkerWrapper.Worker)
    ensures forall i :: 0 <= i < |ProcessJob(job, ThrewNullish)| && ProcessJob(job, ThrewNullish)[i].Send? ==>
      && !ProcessJob(job, ThrewNullish)[i].post.data.JobReturnCall?
      && WorkerWrapper.Receive(w, ProcessJob(job, ThrewNullish)[i].post.data).Success?
      && WorkerWrapper.Receive(w, ProcessJob(job, ThrewNullish)[i].post.data).value.worker == w
  {
  }
}

=== FILE: worker_wrapper.dfy ===
/** The page-side wrapper around one web worker (`WebWorker`): its FIFO job queue,
    the single in-flight slot, the init handshake and the graceful shutdown.
    Each `await` is a separate transition: `start` waits for a `ready` message and
    `shutdown` waits for the next `idle` event; both waits are flags here. The wait
    for `jobok-<id>` in `_processQueue` adds a one-shot listener whose promise
    nothing awaits, so it has no observable effect and is not modelled. */
module WorkerWrapper {
  import opened Basics
  import opened Protocol

  /** The optional `[message, transfer]` pair handed to the worker's init function. */
  datatype InitArgs = InitArgs(message: Payload, transfer: Option<seq<Buffer>>)

  /** Events the wrapper triggers on itself (`jobok-<id>` and `jobdone-<id>` carry the id). */
  datatype Event = Ready | Idle | JobOk | JobOkFor(id: JobId) | JobDone | JobDoneFor(id: JobId)

  /** What a transition asks of the real worker: a `postMessage` or `terminate()`. */
  datatype Effect = Send(post: Post) | Terminate

  datatype Worker = Worker(
    jobs: seq<Job>,
    workingJob: Option<JobId>,
    active: bool,
    initArgs: Option<InitArgs>,
    awaitingReady: bool,   // `start` is suspended in `waitFor('ready')`
    awaitingIdle: bool,    // `shutdown` is suspended in `waitFor('idle')`
    terminated: bool)

  datatype Step = Step(worker: Worker, effects: seq<Effect>, fired: seq<Event>)

  datatype WorkerError = NotTakingJobs | UnknownMessage

  /** The constructor: an empty, inactive wrapper. Materialising the worker script is
      not modelled. */
  function New(initArgs: Option<InitArgs>): (w: Worker)
    ensures w.jobs == [] && w.workingJob.None? && !w.active
    ensures !w.awaitingReady && !w.awaitingIdle && !w.terminated
  {
    Worker([], None, false, initArgs, false, false, false)
  }

  function Ids(jobs: seq<Job>): (ids: seq<JobId>)
    ensures |ids| == |jobs|
    ensures forall i :: 0 <= i < |jobs| ==> ids[i] == jobs[i].id
  {
    if |jobs| == 0 then [] else [jobs[0].id] + Ids(jobs[1..])
  }

  /** `Array.prototype.indexOf`: the first position of `x`, or -1. */
  function IndexOf(s: seq<JobId>, x: JobId): (i: int)
    ensures -1 <= i < |s|
    ensures i >= 0 ==> s[i] == x && forall j :: 0 <= j < i ==> s[j] != x
    ensures i == -1 <==> x !in s
  {
    if |s| == 0 then -1
    else if s[0] == x then 0
    else
      var i := IndexOf(s[1..], x);
      if i == -1 then -1 else i + 1
  }

  /** `Array.prototype.splice(start, 1)`: a negative start counts from the end and
      is clamped at 0, a start past the end removes nothing. */
  function SpliceOne<T>(s: seq<T>, start: int): seq<T> {
    var from := if start < 0 then (if |s| + start < 0 then 0 else |s| + start)
                else (if start > |s| then |s| else start);
    if from < |s| then s[..from] + s[from + 1..] else s
  }

  /** The init message: `initArgs[0]` and `initArgs[1]`, or `undefined` for both. */
  function InitMessage(w: Worker): Message {
    match w.initArgs
    case None => InitCall(Undefined, None)
    case Some(a) => InitCall(a.message, a.transfer)
  }

  /** `start`: posts the init message and suspends until `ready`. */
  function Start(w: Worker): (s: Step)
    ensures s.effects == [Send(Post(InitMessage(w), []))]
    ensures s.worker.awaitingReady
    ensures s.worker.active == w.active && s.worker.jobs == w.jobs && s.worker.workingJob == w.workingJob
    ensures s.fired == []
  {
    Step(w.(awaitingReady := true), [Send(Post(InitMessage(w), []))], [])
  }

  /** The post that hands a job to the worker, with its buffers or none. */
  function JobPost(job: Job): Effect {
    Send(Post(JobCall(job), job.transfer.GetOr([])))
  }

  /** `_processQueue`: while a job is in flight nothing happens; otherwise the head of
      the queue becomes the in-flight job and is posted with its buffers (or none). */
  function ProcessQueue(w: Worker): (s: Step)
    requires w.workingJob.Some? || |w.jobs| > 0
    ensures w.workingJob.Some? ==> s == Step(w, [], [])
    ensures w.workingJob.None? ==>
      && s.worker == w.(workingJob := Some(w.jobs[0].id))
      && s.effects == [JobPost(w.jobs[0])]
      && s.fired == []
  {
    if w.workingJob.Some? then Step(w, [], [])
    else
      var job := w.jobs[0];
      Step(w.(workingJob := Some(job.id)), [JobPost(job)], [])
  }

  /** Triggers `idle` after `effects` and `fired`; a shutdown waiting for it then
      terminates the worker. */
  function FireIdle(w: Worker, effects: seq<Effect>, fired: seq<Event>): (s: Step)
    ensures s.fired == fired + [Idle]
    ensures s.worker.jobs == w.jobs && s.worker.workingJob == w.workingJob && s.worker.active == w.active
    ensures s.effects == effects + (if w.awaitingIdle then [Terminate] else [])
    ensures s.worker.terminated == (w.terminated || w.awaitingIdle)
    ensures !s.worker.awaitingIdle
  {
    if w.awaitingIdle then
      Step(w.(awaitingIdle := false, terminated := true), effects + [Terminate], fired + [Idle])
    else
      Step(w, effects, fired + [Idle])
  }

  /** `submitJob`: an inactive wrapper throws and keeps its queue; an active one
      appends the job and dispatches it if no job is in flight. */
  function SubmitJob(w: Worker, job: Job): (r: Result<Step, WorkerError>)
    ensures r.Failure? <==> !w.active
    ensures r.Failure? ==> r.error == NotTakingJobs
    ensures r.Success? ==>
      && r.value.worker.jobs == w.jobs + [job]
      && r.value.worker.active
      && r.value.fired == []
      && (w.workingJob.Some? ==> r.value.worker.workingJob == w.workingJob && r.value.effects == [])
  {
    if !w.active then Failure(NotTakingJobs)
    else Success(ProcessQueue(w.(jobs := w.jobs + [job])))
  }

  /** `shutdown`: stops taking jobs at once; terminates at once when the queue is
      empty, otherwise only when `idle` next fires. */
  function Shutdown(w: Worker): (s: Step)
    ensures !s.worker.active
    ensures s.worker.jobs == w.jobs && s.worker.workingJob == w.workingJob
    ensures (Terminate in s.effects) <==> |w.jobs| == 0
    ensures s.worker.awaitingIdle <==> (|w.jobs| > 0 || w.awaitingIdle)
    ensures s.fired == []
  {
    if |w.jobs| > 0 then Step(w.(active := false, awaitingIdle := true), [], [])
    else Step(w.(active := false, terminated := true), [Terminate], [])
  }

  /** The queue after a `jobdone` for `id`: the position of `id` in the queue is
      spliced out, and an unknown id gives position -1, which removes the last job. */
  function Finish(jobs: seq<Job>, id: JobId): seq<Job> {
    SpliceOne(jobs, IndexOf(Ids(jobs), id))
  }

  /** `_messageHandler`: reacts to a message from the worker. */
  function Receive(w: Worker, msg: Message): (r: Result<Step, WorkerError>)
    ensures r.Failure? <==> !(msg.ReadyCall? || msg.JobAcceptCall? || msg.JobReturnCall?)
    ensures msg.ReadyCall? && !w.awaitingReady ==> r == Success(Step(w, [], [Ready]))
    ensures msg.ReadyCall? && w.awaitingReady ==>
      && r.value.worker.active && !r.value.worker.awaitingReady
      && r.value.fired == [Ready, Idle]
      && r.value.effects == (if w.awaitingIdle then [Terminate] else [])
      && r.value.worker.terminated == (w.terminated || w.awaitingIdle)
      && !r.value.worker.awaitingIdle
      && r.value.worker.jobs == w.jobs && r.value.worker.workingJob == w.workingJob
      && r.value.worker.initArgs == w.initArgs
    ensures msg.JobAcceptCall? ==> r == Success(Step(w, [], [JobOk, JobOkFor(msg.id)]))
    ensures msg.JobReturnCall? ==>
      && r.value.worker.jobs == Finish(w.jobs, msg.id)
      && r.value.worker.active == w.active
      && |r.value.fired| >= 2 && r.value.fired[..2] == [JobDone, JobDoneFor(msg.id)]
      && (Idle in r.value.fired <==> |r.value.worker.jobs| == 0)
      && (|r.value.worker.jobs| == 0 ==>
            && r.value.worker.workingJob.None?
            && r.value.effects == (if w.awaitingIdle then [Terminate] else [])
            && r.value.worker.terminated == (w.terminated || w.awaitingIdle)
            && !r.value.worker.awaitingIdle
            && r.value.worker.initArgs == w.initArgs && r.value.worker.awaitingReady == w.awaitingReady)
      && (|r.value.worker.jobs| > 0 ==>
            && r.value.worker.workingJob == Some(r.value.worker.jobs[0].id)
            && r.value.effects == [JobPost(r.value.worker.jobs[0])]
            && r.value.worker.initArgs == w.initArgs && r.value.worker.awaitingReady == w.awaitingReady
            && r.value.worker.awaitingIdle == w.awaitingIdle && r.value.worker.terminated == w.terminated)
  {
    match msg
    case ReadyCall =>
      if w.awaitingReady then
        Success(FireIdle(w.(active := true, awaitingReady := false), [], [Ready]))
      else
        Success(Step(w, [], [Ready]))
    case JobAcceptCall(id) =>
      Success(Step(w, [], [JobOk, JobOkFor(id)]))
    case JobReturnCall(id, _, _) =>
      Success(Complete(w, id))
    case _ =>
      Failure(UnknownMessage)
  }

  /** The `jobdone` branch of `_messageHandler`: the job leaves the queue and the
      in-flight slot clears; a drained queue fires `idle` (ending a waiting
      shutdown), otherwise the next job is posted. */
  function Complete(w: Worker, id: JobId): (s: Step)
    ensures s.worker.jobs == Finish(w.jobs, id)
    ensures s.worker.active == w.active
    ensures |s.fired| >= 2 && s.fired[..2] == [JobDone, JobDoneFor(id)]
    ensures Idle in s.fired <==> |s.worker.jobs| == 0
    ensures |s.worker.jobs| == 0 ==>
      && s.worker.workingJob.None?
      && s.effects == (if w.awaitingIdle then [Terminate] else [])
      && s.worker.terminated == (w.terminated || w.awaitingIdle)
      && !s.worker.awaitingIdle
      && s.worker.initArgs == w.initArgs && s.worker.awaitingReady == w.awaitingReady
    ensures |s.worker.jobs| > 0 ==>
      && s.worker.workingJob == Some(s.worker.jobs[0].id)
      && s.effects == [JobPost(s.worker.jobs[0])]
      && s.worker.initArgs == w.initArgs && s.worker.awaitingReady == w.awaitingReady
      && s.worker.awaitingIdle == w.awaitingIdle && s.worker.terminated == w.terminated
  {
    var w' := w.(jobs := Finish(w.jobs, id), workingJob := None);
    if |w'.jobs| == 0 then
      FireIdle(w', [], [JobDone, JobDoneFor(id)])
    else
      var s := ProcessQueue(w');
      Step(s.worker, s.effects, [JobDone, JobDoneFor(id)])
  }

  /** Reference definition: the queue with its first job carrying `id` taken out. */
  function RemoveFirst(jobs: seq<Job>, id: JobId): seq<Job> {
    if |jobs| == 0 then []
    else if jobs[0].id == id then jobs[1..]
    else [jobs[0]] + RemoveFirst(jobs[1..], id)
  }

  /** RemoveFirst cuts the queue at the first position holding `id`. */
  lemma {:induction false} RemoveFirstAt(jobs: seq<Job>, id: JobId, i: nat)
    requires i < |jobs| && jobs[i].id == id
    requires forall j :: 0 <= j < i ==> jobs[j].id != id
    ensures RemoveFirst(jobs, id) == jobs[..i] + jobs[i + 1..]
  {
    if i > 0 {
      RemoveFirstAt(jobs[1..], id, i - 1);
      assert jobs[..i] == [jobs[0]] + jobs[1..][..i - 1];
      assert jobs[i + 1..] == jobs[1..][i..];
    }
  }

  /** A `jobdone` for a queued id removes exactly the first job with that id; one
      for an id that is not queued removes the LAST job (`splice(-1, 1)`), or
      nothing when the queue is empty. */
  lemma FinishRemoves(jobs: seq<Job>, id: JobId)
    ensures id in Ids(jobs) ==> Finish(jobs, id) == RemoveFirst(jobs, id)
    ensures id !in Ids(jobs) && |jobs| > 0 ==> Finish(jobs, id) == jobs[..|jobs| - 1]
    ensures id !in Ids(jobs) && |jobs| == 0 ==> Finish(jobs, id) == []
  {
    if id in Ids(jobs) {
      FinishQueued(jobs, id);
    } else {
      FinishUnknown(jobs, id);
    }
  }

  lemma FinishQueued(jobs: seq<Job>, id: JobId)
    requires id in Ids(jobs)
    ensures Finish(jobs, id) == RemoveFirst(jobs, id)
  {
    var ids := Ids(jobs);
    var i := IndexOf(ids, id);
    assert 0 <= i;
    SpliceAt(jobs, i);
    assert jobs[i].id == id by {
      assert ids[i] == jobs[i].id;
    }
    forall j | 0 <= j < i
      ensures jobs[j].id != id
    {
      assert ids[j] == jobs[j].id;
    }
    RemoveFirstAt(jobs, id, i);
  }

  /** `splice(i, 1)` at a position inside the sequence removes exactly that element. */
  lemma SpliceAt<T>(s: seq<T>, i: int)
    requires 0 <= i < |s|
    ensures SpliceOne(s, i) == s[..i] + s[i + 1..]
  {
  }

  lemma FinishUnknown(jobs: seq<Job>, id: JobId)
    requires id !in Ids(jobs)
    ensures |jobs| > 0 ==> Finish(jobs, id) == jobs[..|jobs| - 1]
    ensures |jobs| == 0 ==> Finish(jobs, id) == []
  {
    assert IndexOf(Ids(jobs), id) == -1;
    SpliceLast(jobs);
  }

  /** `splice(-1, 1)` drops the last element, and leaves an empty sequence empty. */
  lemma SpliceLast<T>(s: seq<T>)
    ensures |s| > 0 ==> SpliceOne(s, -1) == s[..|s| - 1]
    ensures |s| == 0 ==> SpliceOne(s, -1) == []
  {
    if |s| > 0 {
      assert s[|s|..] == [];
    }
  }

  /** The queue discipline: a job is in flight exactly when the queue is non-empty,
      and the job in flight is the head of the queue. */
  ghost predicate QueueInv(w: Worker) {
    && (w.workingJob.None? <==> |w.jobs| == 0)
    && (w.workingJob.Some? ==> w.workingJob.value == w.jobs[0].id)
  }

  /** The calls a wrapper receives: from its owner, or as messages from its worker. */
  datatype Input = SubmitInput(job: Job) | StartInput | ShutdownInput | MessageInput(msg: Message)

  /** One transition; a call that throws leaves the wrapper as it was. */
  function Handle(w: Worker, input: Input): Step {
    match input
    case SubmitInput(job) =>
      (match SubmitJob(w, job) case Success(s) => s case Failure(_) => Step(w, [], []))
    case StartInput => Start(w)
    case ShutdownInput => Shutdown(w)
    case MessageInput(msg) =>
      (match Receive(w, msg) case Success(s) => s case Failure(_) => Step(w, [], []))
  }

  /** The queue discipline, plus: while `start` waits for `ready` the wrapper is
      inactive and so has no jobs. */
  ghost predicate WrapperInv(w: Worker) {
    QueueInv(w) && (w.awaitingReady ==> !w.active && |w.jobs| == 0)
  }

  /** Every transition keeps at most one job in flight, and that job at the head of
      the queue. The queue part holds for every call; the part about `start` holds
      when `start` is only called on an idle, inactive wrapper (as the scheduler
      does, once, on a fresh one). */
  lemma HandleKeepsWrapperInv(w: Worker, input: Input)
    requires WrapperInv(w)
    requires input.StartInput? ==> !w.active && |w.jobs| == 0
    ensures WrapperInv(Handle(w, input).worker)
  {
  }

  /** The worker is only ever terminated with an empty queue: a shutdown drops no
      queued or in-flight job. */
  lemma TerminateOnlyWhenDrained(w: Worker, input: Input)
    requires WrapperInv(w)
    ensures Terminate in Handle(w, input).effects ==> |Handle(w, input).worker.jobs| == 0
  {
  }

  /** The jobs posted to the worker by a list of effects, in order. */
  function PostedJobs(effects: seq<Effect>): seq<Job> {
    if |effects| == 0 then []
    else
      (if effects[0].Send? && effects[0].post.data.JobCall? then [effects[0].post.data.job] else [])
      + PostedJobs(effects[1..])
  }

  lemma {:induction false} PostedJobsAppend(a: seq<Effect>, b: seq<Effect>)
    ensures PostedJobs(a + b) == PostedJobs(a) + PostedJobs(b)
  {
    if |a| == 0 {
      assert a + b == b;
    } else {
      assert (a + b)[1..] == a[1..] + b;
      PostedJobsAppend(a[1..], b);
    }
  }

  /** The queued jobs not yet posted: all of them, or all but the one in flight. */
  function Unposted(w: Worker): seq<Job>
    requires QueueInv(w)
  {
    if w.workingJob.Some? then w.jobs[1..] else w.jobs
  }

  datatype Run = Run(worker: Worker, effects: seq<Effect>)

  /** A sequence of calls applied one after the other. */
  function RunAll(w: Worker, inputs: seq<Input>): Run
    decreases |inputs|
  {
    if |inputs| == 0 then Run(w, [])
    else
      var s := Handle(w, inputs[0]);
      var rest := RunAll(s.worker, inputs[1..]);
      Run(rest.worker, s.effects + rest.effects)
  }

  /** The jobs submitted by a sequence of calls, in order. */
  function Submitted(inputs: seq<Input>): seq<Job> {
    if |inputs| == 0 then []
    else (if inputs[0].SubmitInput? then [inputs[0].job] else []) + Submitted(inputs[1..])
  }

  /** A run of submissions and of completions reported by the worker script, each
      `jobdone` carrying the id of the job in flight (as the worker script does). */
  ghost predicate Orderly(w: Worker, inputs: seq<Input>)
    decreases |inputs|
  {
    |inputs| > 0 ==>
      && (inputs[0].SubmitInput?
          || (inputs[0].MessageInput? && inputs[0].msg.JobReturnCall?
              && w.workingJob == Some(inputs[0].msg.id)))
      && Orderly(Handle(w, inputs[0]).worker, inputs[1..])
  }

  /** A submission to an active wrapper posts the job at once when nothing is in
      flight, and otherwise queues it behind the jobs still waiting. */
  lemma SubmitStep(w: Worker, job: Job)
    requires QueueInv(w) && w.active
    ensures QueueInv(Handle(w, SubmitInput(job)).worker) && Handle(w, SubmitInput(job)).worker.active
    ensures PostedJobs(Handle(w, SubmitInput(job)).effects) + Unposted(Handle(w, SubmitInput(job)).worker)
      == Unposted(w) + [job]
  {
    var s := Handle(w, SubmitInput(job));
    if w.workingJob.None? {
      assert s.effects == [JobPost(job)];
      assert PostedJobs(s.effects) == [job];
    } else {
      assert s.effects == [];
      assert s.worker.jobs[1..] == w.jobs[1..] + [job];
    }
  }

  /** A `jobdone` for the job in flight retires the head of the queue and posts the
      next job, if there is one. */
  lemma DoneStep(w: Worker, id: JobId, error: bool, message: Payload)
    requires QueueInv(w) && w.active
    requires w.workingJob == Some(id)
    ensures QueueInv(Handle(w, MessageInput(JobReturnCall(id, error, message))).worker)
    ensures Handle(w, MessageInput(JobReturnCall(id, error, message))).worker.active
    ensures PostedJobs(Handle(w, MessageInput(JobReturnCall(id, error, message))).effects)
      + Unposted(Handle(w, MessageInput(JobReturnCall(id, error, message))).worker)
      == Unposted(w)
  {
    DoneRemovesHead(w, id);
    if |w.jobs| == 1 {
      DoneLast(w, id, error, message);
    } else {
      DoneNext(w, id, error, message);
    }
  }

  /** Completing the only job leaves nothing posted and nothing waiting. */
  lemma DoneLast(w: Worker, id: JobId, error: bool, message: Payload)
    requires QueueInv(w) && w.active && w.workingJob == Some(id) && |w.jobs| == 1
    requires Finish(w.jobs, id) == w.jobs[1..]
    ensures var s := Handle(w, MessageInput(JobReturnCall(id, error, message)));
      && QueueInv(s.worker) && s.worker.active
      && PostedJobs(s.effects) == [] && Unposted(s.worker) == [] && Unposted(w) == []
  {
    var s := Complete(w, id);
    assert Handle(w, MessageInput(JobReturnCall(id, error, message))) == s;
    assert s.worker.jobs == [];
    assert PostedJobs(s.effects) == [] by {
      if w.awaitingIdle {
        assert s.effects == [Terminate];
      } else {
        assert s.effects == [];
      }
    }
  }

  /** Completing the job in flight posts the next one, which leaves the waiting list. */
  lemma DoneNext(w: Worker, id: JobId, error: bool, message: Payload)
    requires QueueInv(w) && w.active && w.workingJob == Some(id) && |w.jobs| > 1
    requires Finish(w.jobs, id) == w.jobs[1..]
    ensures var s := Handle(w, MessageInput(JobReturnCall(id, error, message)));
      && QueueInv(s.worker) && s.worker.active
      && PostedJobs(s.effects) == [w.jobs[1]] && Unposted(s.worker) == w.jobs[2..]
      && Unposted(w) == [w.jobs[1]] + w.jobs[2..]
  {
    var s := Complete(w, id);
    assert Handle(w, MessageInput(JobReturnCall(id, error, message))) == s;
    assert s.worker.jobs == w.jobs[1..] && s.worker.workingJob == Some(w.jobs[1].id);
    assert PostedJobs(s.effects) == [w.jobs[1]] by {
      assert s.effects == [JobPost(w.jobs[1])];
    }
    assert w.jobs[1..][1..] == w.jobs[2..];
  }

  /** The completion of the job in flight removes the head of the queue. */
  lemma DoneRemovesHead(w: Worker, id: JobId)
    requires QueueInv(w) && w.workingJob == Some(id)
    ensures Finish(w.jobs, id) == w.jobs[1..]
  {
    assert Ids(w.jobs)[0] == id;
    assert IndexOf(Ids(w.jobs), id) == 0;
    SpliceAt(w.jobs, 0);
  }

  /** FIFO dispatch: over an orderly run of an active wrapper the jobs are posted to
      the worker exactly in the order they were queued, and the ones still waiting
      follow them in that same order. */
  lemma {:induction false} FifoDispatch(w: Worker, inputs: seq<Input>)
    requires QueueInv(w) && w.active
    requires Orderly(w, inputs)
    ensures QueueInv(RunAll(w, inputs).worker) && RunAll(w, inputs).worker.active
    ensures PostedJobs(RunAll(w, inputs).effects) + Unposted(RunAll(w, inputs).worker)
      == Unposted(w) + Submitted(inputs)
    decreases |inputs|
  {
    if |inputs| > 0 {
      var s := Handle(w, inputs[0]);
      match inputs[0] {
        case SubmitInput(job) => SubmitStep(w, job);
        case MessageInput(msg) => DoneStep(w, msg.id, msg.error, msg.message);
      }
      FifoDispatch(s.worker, inputs[1..]);
      var rest := RunAll(s.worker, inputs[1..]);
      PostedJobsAppend(s.effects, rest.effects);
      var head := if inputs[0].SubmitInput? then [inputs[0].job] else [];
      assert Submitted(inputs) == head + Submitted(inputs[1..]);
      assert RunAll(w, inputs) == Run(rest.worker, s.effects + rest.effects);
      var p1, p2, u1 := PostedJobs(s.effects), PostedJobs(rest.effects), Unposted(s.worker);
      assert p2 + Unposted(rest.worker) == u1 + Submitted(inputs[1..]);
      assert p1 + u1 == Unposted(w) + head;
      Associative(p1, p2, Unposted(rest.worker));
      Associative(p1, u1, Submitted(inputs[1..]));
      Associative(Unposted(w), head, Submitted(inputs[1..]));
    }
  }

  /** The init handshake of a fresh wrapper: `start` posts only the init message and
      leaves the wrapper inactive; the `ready` message then activates it and fires
      `ready` and `idle`, in that order. */
  lemma StartHandshake(initArgs: Option<InitArgs>)
    ensures
      var s1 := Start(New(initArgs));
      var s2 := Receive(s1.worker, ReadyCall);
      && s1.effects == [Send(Post(InitMessage(New(initArgs)), []))]
      && !s1.worker.active
      && s2.Success? && s2.value.worker.active
      && s2.value.fired == [Ready, Idle]
      && s2.value.effects == []
  {
  }

  /** The posts of a list of jobs, one after the other. */
  function JobPosts(jobs: seq<Job>): (out: seq<Effect>)
    ensures |out| == |jobs|
    ensures forall i :: 0 <= i < |jobs| ==> out[i] == JobPost(jobs[i])
  {
    if |jobs| == 0 then [] else [JobPost(jobs[0])] + JobPosts(jobs[1..])
  }

  /** The first |inputs| queued jobs complete in queue order: each input is the
      worker's `jobdone` for the job at the same position. */
  ghost predicate CompletesInOrder(jobs: seq<Job>, inputs: seq<Input>) {
    && |inputs| <= |jobs|
    && forall i :: 0 <= i < |inputs| ==>
         inputs[i].MessageInput? && inputs[i].msg.JobReturnCall? && inputs[i].msg.id == jobs[i].id
  }

  /** While a shutdown waits, completions that leave jobs queued each post the next
      job and keep the wrapper waiting, so nothing terminates the worker. */
  lemma {:induction false} DrainPrefix(w: Worker, inputs: seq<Input>)
    requires QueueInv(w) && w.awaitingIdle
    requires |inputs| < |w.jobs| && CompletesInOrder(w.jobs, inputs)
    ensures var run := RunAll(w, inputs);
      && run.effects == JobPosts(w.jobs[1..|inputs| + 1])
      && run.worker.jobs == w.jobs[|inputs|..]
      && QueueInv(run.worker) && run.worker.awaitingIdle
      && run.worker.terminated == w.terminated && run.worker.active == w.active
    decreases |inputs|
  {
    if |inputs| == 0 {
      assert w.jobs[1..1] == [];
    } else {
      DrainStep(w, inputs[0]);
      var s := Handle(w, inputs[0]);
      CompletesTail(w.jobs, inputs);
      DrainPrefix(s.worker, inputs[1..]);
      var rest := RunAll(s.worker, inputs[1..]);
      assert RunAll(w, inputs) == Run(rest.worker, s.effects + rest.effects);
      JobPostsFrom(w.jobs, |inputs|);
      assert w.jobs[1..][|inputs| - 1..] == w.jobs[|inputs|..];
    }
  }

  lemma CompletesTail(jobs: seq<Job>, inputs: seq<Input>)
    requires |inputs| > 0 && CompletesInOrder(jobs, inputs)
    ensures CompletesInOrder(jobs[1..], inputs[1..])
  {
    forall i | 0 <= i < |inputs| - 1
      ensures inputs[1..][i].msg.id == jobs[1..][i].id
    {
      assert inputs[1..][i] == inputs[i + 1];
    }
  }

  /** The posts of jobs 1 to n: the post of job 1, then those of jobs 2 to n. */
  lemma JobPostsFrom(jobs: seq<Job>, n: nat)
    requires 1 <= n < |jobs|
    ensures JobPosts(jobs[1..n + 1]) == [JobPost(jobs[1])] + JobPosts(jobs[1..][1..n])
  {
    var posts := jobs[1..n + 1];
    assert posts[0] == jobs[1];
    assert posts[1..] == jobs[2..n + 1];
    assert jobs[1..][1..n] == jobs[2..n + 1];
  }

  /** One completion with more jobs queued behind it, while a shutdown waits. */
  lemma DrainStep(w: Worker, x: Input)
    requires QueueInv(w) && w.awaitingIdle && |w.jobs| > 1
    requires x.MessageInput? && x.msg.JobReturnCall? && x.msg.id == w.jobs[0].id
    ensures var s := Handle(w, x);
      && s.worker.jobs == w.jobs[1..] && s.effects == [JobPost(w.jobs[1])]
      && QueueInv(s.worker) && s.worker.awaitingIdle
      && s.worker.terminated == w.terminated && s.worker.active == w.active
  {
    DoneRemovesHead(w, x.msg.id);
  }

  /** The completion of the last queued job, while a shutdown waits. */
  lemma DrainLast(w: Worker, x: Input)
    requires QueueInv(w) && w.awaitingIdle && |w.jobs| == 1
    requires x.MessageInput? && x.msg.JobReturnCall? && x.msg.id == w.jobs[0].id
    ensures var s := Handle(w, x);
      && s.effects == [Terminate] && Idle in s.fired
      && s.worker.terminated && s.worker.jobs == []
  {
    DoneRemovesHead(w, x.msg.id);
  }

  /** While a shutdown waits, k >= 1 queued jobs completing in order: the run
      posts the jobs behind the first, then asks for the termination, and leaves
      the worker terminated with an empty queue. */
  lemma {:induction false} DrainAll(w: Worker, inputs: seq<Input>)
    requires QueueInv(w) && w.awaitingIdle
    requires |w.jobs| > 0 && |inputs| == |w.jobs| && CompletesInOrder(w.jobs, inputs)
    ensures RunAll(w, inputs).effects == JobPosts(w.jobs[1..]) + [Terminate]
    ensures RunAll(w, inputs).worker.terminated && RunAll(w, inputs).worker.jobs == []
    decreases |inputs|
  {
    var s := Handle(w, inputs[0]);
    if |inputs| == 1 {
      DrainLast(w, inputs[0]);
      assert RunAll(s.worker, inputs[1..]) == Run(s.worker, []);
      assert w.jobs[1..] == [];
    } else {
      DrainStep(w, inputs[0]);
      CompletesTail(w.jobs, inputs);
      DrainAll(s.worker, inputs[1..]);
      var rest := RunAll(s.worker, inputs[1..]);
      assert RunAll(w, inputs) == Run(rest.worker, s.effects + rest.effects);
      assert w.jobs[1..][1..] == s.worker.jobs[1..];
      assert JobPosts(w.jobs[1..]) == [JobPost(w.jobs[1])] + JobPosts(s.worker.jobs[1..]);
      Associative(s.effects, JobPosts(s.worker.jobs[1..]), [Terminate]);
    }
  }

  lemma CompletesPrefix(jobs: seq<Job>, inputs: seq<Input>, j: nat)
    requires j <= |inputs| && CompletesInOrder(jobs, inputs)
    ensures CompletesInOrder(jobs, inputs[..j])
  {
  }

  /** A shutdown of a wrapper with k >= 1 queued jobs does not terminate the worker.
      As the jobs complete in order, the first j < k completions only post the
      jobs behind the first and terminate nothing; all k of them end with exactly
      one termination, last, and leave the worker terminated with an empty queue. */
  lemma ShutdownWaitsForIdle(w: Worker, inputs: seq<Input>)
    requires WrapperInv(w)
    requires |w.jobs| > 0 && |inputs| == |w.jobs| && CompletesInOrder(w.jobs, inputs)
    ensures Terminate !in Shutdown(w).effects
    ensures forall j :: 0 <= j < |inputs| ==>
      RunAll(Shutdown(w).worker, inputs[..j]).effects == JobPosts(w.jobs[1..j + 1])
    ensures forall j :: 0 <= j < |inputs| ==> Terminate !in RunAll(Shutdown(w).worker, inputs[..j]).effects
    ensures RunAll(Shutdown(w).worker, inputs).effects == JobPosts(w.jobs[1..]) + [Terminate]
    ensures RunAll(Shutdown(w).worker, inputs).worker.terminated
    ensures RunAll(Shutdown(w).worker, inputs).worker.jobs == []
  {
    var s1 := Shutdown(w);
    DrainAll(s1.worker, inputs);
    forall j | 0 <= j < |inputs|
      ensures RunAll(s1.worker, inputs[..j]).effects == JobPosts(w.jobs[1..j + 1])
      ensures Terminate !in RunAll(s1.worker, inputs[..j]).effects
    {
      CompletesPrefix(w.jobs, inputs, j);
      DrainPrefix(s1.worker, inputs[..j]);
      var posts := JobPosts(w.jobs[1..j + 1]);
      assert forall i :: 0 <= i < |posts| ==> posts[i].Send?;
    }
  }
}
